=== FILE: README.md ===
# Blood-donation backend: handlers, session lifecycle and token gate

This project is a Dafny model of the request-handling core of an Express/MongoDB backend for coordinating blood donations. It covers:

- **The bearer-token gate** (`verifyToken`). It reads the `Authorization` header and passes the token to the identity provider. Then it either rejects with 401 or attaches the decoded claims as `req.user` and calls `next`. The identity provider is an oracle `string -> Option<Claims>`. The gate's outcome is a trace: the tokens it verified, how often it called `next`, the attached claims and the rejection sent.
- **The session routes** (`/postSessions`, `/getSessions`, `/delSessions`). A session record is created with a one-day expiry and the `session` cookie is issued. The record is read back by that cookie, and deleted when the cookie is cleared. Each handler returns the response, the session collection afterwards and what it did to the cookie.
- **The donation-request routes**:
  - create, with required-field validation and the "pending" default;
  - fetch by id;
  - filtered listing with cursor pagination;
  - update through a `$set` document;
  - delete;
  - page-numbered listing with `totalPages`.
- **The user routes**: create, look up by email, update by email, list all.
- **The blog routes**: create with the "draft" default, overwrite the content fields, delete, fetch one or all.

Each handler is a pure function of the request's inputs and the collection. It returns the response (status and JSON body) and the collection afterwards. The model makes these modelling choices:

- **Collections.** A collection is a sequence of documents in insertion order. `findOne`, `updateOne` and `deleteOne` act on the first match.
- **Documents.** Documents are maps from field names to a JavaScript-like `Value`. `Undefined` stands for a field the request did not carry, and the store keeps it as `null`.
- **The `_id` index.** The `_id` unique index is part of the model. A `WellFormed` collection, where every `_id` is present and distinct, stays well formed under every handler.
- **Oracles and failure flags.** These are parameters:
  - the `_id` the store generates;
  - the session id the uuid generator yields;
  - the clock;
  - `new Date(…)`;
  - `ObjectId.isValid`;
  - a flag `fails` for "the store call throws".
- **The session collection.** It has no unique index in the source. Distinct session ids are therefore an invariant that the model proves is preserved, as long as the generator yields an unused id.
- **Session expiry.** Reading a session checks only that the record exists. It never compares `expiresAt` with the clock. The model follows the code here, and `Sessions.CreateThenRead` states it: the read takes no clock, so a record past `expiresAt` still reads back as valid. A design that treats an expired record as absent would differ exactly there.

Modules: `Values`, `Collection`, `Documents`, `Auth`, `Sessions`, `Donations`, `Users`, `Blog`, one per file.

## Model

| member | source | states |
|---|---|---|
| Auth.VerifyToken | middleware.js:21-43 | A missing header, or one not starting with "Bearer ", gives 401 "No token provided" and the verifier is never called. Otherwise the verifier is called exactly once, with the second space-separated piece of the header. If it accepts, `req.user` is the decoded claims, `next` runs once and nothing is sent. If it rejects, the response is 401 "Invalid token" and `next` never runs. On every path exactly one of "`next` once" and "a 401" happens. |
| Auth.SecondPieceIsBearerToken | middleware.js:26-31 | For a header starting with "Bearer ", `split(" ")` has at least two pieces. The second piece is the text after "Bearer " up to the next space. |
| Auth.SplitThenJoin | middleware.js:31 | Joining the pieces of `split(sep)` with `sep` gives the header back, so the split loses nothing. |
| Auth.JoinThenSplit | middleware.js:31 | Splitting the join of separator-free pieces gives those pieces back. |
| Sessions.CreateSession | final-app-server/session.js:8-33 | If the insert fails: 500, the store is unchanged and no cookie is set. Otherwise exactly one record is appended and the rest are kept. The new record has the generated session id and the verified `uid`. Its `createdAt` is now, `lastAccessedAt == createdAt` and `expiresAt == createdAt + 86_400_000`. The cookie carries the same session id, with max-age equal to the record's lifetime, http-only, same-site "lax" and secure only in production. The response returns the session id. The cookie is set exactly when the store changed. |
| Sessions.PostSessions | final-app-server/session.js:7-14 | A request the gate rejects gets the gate's 401 and changes nothing. A request whose bearer token the verifier accepts runs `CreateSession` for the decoded claims. A record is added only for an accepted token, and it carries that token's `uid`. |
| Sessions.PostSessionsThenRead | final-app-server/session.js:7-84 | Logging in with an accepted bearer token under an unused session id returns 200, sets the cookie to that id and keeps session ids distinct. The session then reads back as the token's user, with an expiry one day after creation. |
| Sessions.DestroySession | final-app-server/session.js:38-60 | No cookie: 400, nothing changes. Store error: 500. Unknown id: 404 and the cookie is left alone. Known id: the first record with that id is removed, nothing else changes, the cookie is cleared and the response is 200. The cookie is cleared exactly when the store changed. |
| Sessions.ReadSession | final-app-server/session.js:63-88 | Never changes the store or the cookie. No cookie: 401 "No session cookie". Unknown id or store error: 401 "Invalid session". Otherwise 200 with the first matching record's `userId`, `sessionId` and `expiresAt`. A 200 happens exactly when the cookie names a stored session. |
| Sessions.ReadSessionAsWritten | final-app-server/session.js:64-84 | On the cookie as parsed, which can be any JSON value: falsy gives 401 "No session cookie". Otherwise it is 200 exactly when some record's id is selected by `{ sessionId: cookie }`, where a `{ $ne: v }` cookie selects every id but `v`, and the first such record is returned. |
| Sessions.DestroySessionAsWritten | final-app-server/session.js:39-56 | On the cookie as parsed: the store changes exactly when the cookie is truthy, the store works and some record is selected by `{ sessionId: cookie }`. The first such record is removed and the cookie cleared. |
| Sessions.InjectedCookieTakesFirstSession | final-app-server/session.js:47-84 | The cookie `session=j:{"$ne":null}` names no session, yet on any non-empty store it reads back the first record, whoever owns it, and logging out with it removes that record. |
| Sessions.ReadSessionChecked | final-app-server/session.js:64-84 | With the cookie required to be a string, a read gives 200 exactly when the cookie is a non-empty string that is a stored session id, and returns a record with that id. |
| Sessions.DestroySessionChecked | final-app-server/session.js:39-56 | With the cookie required to be a string, the store changes exactly when the cookie is a non-empty string that is a stored session id, and only a record with that id is removed. |
| Sessions.AsWrittenOnStrings | final-app-server/session.js:39-84 | On a string cookie, or none, the routes as written and the checked ones agree exactly, so the injection needs a non-string cookie. |
| Sessions.CreateKeepsIdsUnique | final-app-server/session.js:9-20 | If the generator yields an unused id, creating a session keeps session ids distinct. |
| Sessions.DestroyKeepsIdsUnique | final-app-server/session.js:47-56 | Deleting keeps session ids distinct, and afterwards the deleted id is no longer known. |
| Sessions.CreateThenRead | final-app-server/session.js:72-84 | A session created under an unused id reads back with the creator's `uid` and an expiry one day after creation, whatever the time of the read. |
| Sessions.DestroyTwice | final-app-server/session.js:47-56 | With distinct ids, the first logout returns 200 and clears the cookie. The second returns 404 and changes nothing. |
| Sessions.DuplicateIdSurvivesLogout | final-app-server/session.js:47-51 | Without distinct ids, one delete removes only one of two equal records, so a second logout also succeeds. |
| Sessions.Lifecycle | final-app-server/session.js:7-89 | The full cycle: log in, read (200 with the user's `uid`), log out (200, cookie cleared), then read again (401 "Invalid session"). |
| Donations.CreateDonation | donations.js:7-67 | If any of the nine required fields is falsy: 400 and nothing is inserted. Store error or taken `_id`: 500 and nothing is inserted. Otherwise 201 with the new id, and exactly one document is appended. That document is `IsNewDonation`: the ten copied fields (null where absent), the parsed date, the given status or "pending", the creation time and the `_id`, and no other field. A 201 happens exactly when the fields are present and the insert succeeds. |
| Donations.StoredDonation | donations.js:45-59 | The document built from a request body has exactly the fields listed under `Donations.CreateDonation`. The status is the supplied one when truthy, otherwise "pending". |
| Donations.GetDonationRequestById | donations.js:69-92 | Never changes the store. Absent or invalid id: 400. Store error: 500. No document with that `_id`: 404. Otherwise 200 with the first document holding the `_id`. A 200 happens exactly when the id is valid and present. |
| Donations.QueryFilter | donations.js:103-108 | The filter holds exactly the truthy parameters among `requesterEmail`, `recipientDistrict`, `bloodGroup` and `status`, each as given, with `status` filtering `donationStatus`. It holds nothing else. |
| Donations.GetDonationRequests | donations.js:96-129 | Store error: 500. Otherwise 200. The response lists the filtered documents from position `cursor` on, at most `limit` of them. `limit` defaults to 10 and `cursor` to 0 when the query leaves them out. `nextCursor` is `cursor + limit` when the page came back full, otherwise null. |
| Collection.CursorStep | donations.js:111-118 | The page holds the items at positions `cursor`, `cursor+1`, … of the listing: `min(limit, remaining)` of them, or all the rest when the limit is 0. With a positive limit, a next cursor exists exactly when `cursor + limit` does not pass the end, and it equals `cursor + limit`. |
| Collection.FollowCursorYieldsRest | donations.js:111-118 | Following `nextCursor` from `cursor` until it is null yields every item from `cursor` on, once each and in order. From 0, that is the whole filtered listing. |
| Collection.UnlimitedExhaustedCursorRepeats | donations.js:113-118 | With limit 0 and a cursor at or past the end, the empty page counts as full and the same cursor comes back, so a client following it never stops. |
| Donations.UpdateDocOf | donations.js:137-143 | The `$set` document holds `donationStatus` exactly when it is truthy, and every other body field. Each value is as sent. It is empty exactly when the body holds nothing but a falsy `donationStatus`. |
| Donations.UpdateDonationRequest | donations.js:133-164 | Empty update document: 400. Invalid id or store error: 500. No document with that `_id`: 404. An update that would change the `_id` of the document holding the id: 500. In all these cases the store is unchanged. The response is 200 exactly when the update document is non-empty, the id is valid, the store works and the first document holding the `_id` keeps it under the `$set`. On 200, only that document gets the `$set` fields. |
| Donations.DeleteDonation | donations.js:165-186 | Empty id: 400. Invalid id or store error: 500. No document with that `_id`: 404. In all these cases the store is unchanged. On 200, exactly the first document holding the `_id` is removed. A 200 happens exactly when the id is valid and present. |
| Donations.StatusFilter | donations.js:197-200 | The filter is on `donationStatus` only for "pending", "inprogress", "done" or "canceled". Any other status, or none, gives no filter. |
| Donations.PagedDonations | donations.js:192-221 | With a positive limit, page `page` holds the documents at `(page-1)*limit` onward in the status-filtered listing, at most `limit` of them. `totalPages` is the least n with `n*limit >= total`, that is `ceil(total/limit)`. With limit 0 (no limit) every page holds the whole filtered listing and `totalPages` is null. `totalDonations` is the filtered count, and the listing reports the page number and page size as given. |
| Collection.CeilDiv | donations.js:218 | `n*limit >= total`, and `(n-1)*limit < total` when n > 0: the integer ceiling of `total/limit`. |
| Donations.PagedListingCoversAll | donations.js:194-218 | Pages 1 to `totalPages` together list every filtered donation once, in order, and none of them is empty. Every page after `totalPages` is empty. |
| Donations.GetPaginatedDonation | donations.js:188-226 | Never changes the store. `page` defaults to 1 and `limit` to 10 when the query leaves them out. With a positive limit, a page below 1 makes the skip negative, which gives 500, and so does a store error. Otherwise 200 with the page listing. |
| Donations.DefaultPage | donations.js:192-221 | With neither `page` nor `limit` given, the response is 200 with the first ten donations having the status, page 1 of size 10, and `ceil(total/10)` pages. |
| Donations.CreateThenGetById | donations.js:45-87 | In a well-formed store, a created request can be fetched by its new id with 200. It carries the requested status or "pending", and the store stays well formed. |
| Donations.UpdateThenGet | donations.js:150-159 | In a well-formed store, take a non-empty update of a valid id held by a document whose `_id` the update keeps. Afterwards the store stays well formed, and fetching the id gives 200 and a document showing every `$set` field. |
| Donations.DeleteThenGone | donations.js:175-181 | After a delete the store stays well formed. The id then gives 404 both on fetch and on a second delete. |
| Users.CreateUser | users.js:7-36 | If `name`, `email` or `password` is falsy: 400 and nothing is inserted. Store error or taken `_id`: 500 and nothing is inserted. Otherwise 201 with the new id, and exactly one document is appended. That document is `IsNewUser`: the ten copied fields (null where absent), `createdAt` and the `_id`, and nothing else. |
| Users.StoredUser | users.js:17-29 | The user document built from a body has exactly the ten copied fields, `createdAt` and the `_id`. |
| Users.GetUser | users.js:38-65 | Never changes the store. Empty email: 400. Store error: 500. No user with that email: 404. Otherwise 200 with `{ user }`, the first user with that email. A 200 happens exactly when the email is known. |
| Users.UpdateUser | users.js:67-103 | Empty email: 400. Empty body: 400. Store error: 500. No user with that email: 404. A body that would change the first such user's `_id`: 500. In all these cases the store is unchanged. The response is 200 exactly when the email and body are non-empty, the store works and the first user with that email keeps its `_id` under the `$set`. On 200, exactly that user gets the body's fields set, and every other user is unchanged. The reported `updateResult` has matchedCount 1, and modifiedCount 0 exactly when the `$set` changed nothing. |
| Users.UpdateByEmail | users.js:86-98 | `updateOne({ email }, { $set })` is refused exactly when it would change the first such user's `_id`. It matches nothing exactly when no user has the email. Otherwise it changes that first user and no other, with modifiedCount 1 exactly when the user changed. |
| Users.GetAllUsers | users.js:104-124 | Store error: 500. Empty collection: 404. Otherwise 200 with every user, in order. |
| Users.CreateThenGetUser | users.js:17-60 | A new user whose email nobody had is found by that email. |
| Users.DuplicateEmailShadowed | users.js:12-51 | A second account with an email already in use is accepted. Looking up that email still returns the older account. |
| Users.UpdateThenGetUser | users.js:51-98 | Take an update of a known user that keeps both the email and the `_id`. Afterwards, looking the user up gives 200 and shows every updated field. |
| Users.CreateUserKeepsWellFormed | users.js:17-29 | Creating a user keeps every `_id` present and distinct. |
| Users.UpdateUserKeepsWellFormed | users.js:86-89 | Updating a user keeps every `_id` present and distinct. |
| Blog.CreatePost | blog.js:7-30 | If `title` or `content` is falsy: 400 and nothing is inserted. Store error or taken `_id`: 500. Otherwise 201 with the new id, and exactly one document is appended. That document is `IsNewPost`: title, content and picture (null where absent), the given status or "draft", `createdAt` and the `_id`, and nothing else. |
| Blog.StoredPost | blog.js:17-23 | The post document built from a body has exactly those fields, with the status defaulting to "draft". |
| Blog.PostUpdateFields | blog.js:46 | The `$set` of an update names exactly title, content, picture, status and `updatedAt`. Each content field is taken from the body, undefined included. |
| Blog.UpdatePost | blog.js:33-58 | Empty id: 400. Invalid id or store error: 500. No post with that `_id`: 404. In all these cases the store is unchanged. On 200, only the first post holding the `_id` gets the `$set`. A 200 happens exactly when the id is valid and present. |
| Blog.UpdatedPostFields | blog.js:44-47 | After the update, the post holds the four content fields as sent, null for those left out, and the update time. |
| Blog.DeletePost | blog.js:61-82 | Empty id: 400. Invalid id or store error: 500. No post with that `_id`: 404. In all these cases the store is unchanged. On 200, exactly the first post holding the `_id` is removed. A 200 happens exactly when the id is valid and present. |
| Blog.GetPost | blog.js:85-107 | Never changes the store. With an id: 500 for an invalid id or store error, 404 when absent, otherwise 200 with the first post holding the id. Without an id: 200 with every post in order, or 500 on a store error. |
| Blog.CreateThenGetPost | blog.js:17-98 | A created post reads back by its new id, in "draft" unless a status was given. The store stays well formed. |
| Blog.UpdateThenGetPost | blog.js:44-98 | After an update, the post reads back showing the four content fields, null for those left out, and `updatedAt`. |
| Blog.DeleteThenGone | blog.js:71-95 | After a delete the store stays well formed, and the id gives 404 both on fetch and on a second delete. |
| Values.FalsyValues | donations.js:27-37 | The `!field` guards reject exactly `undefined`, `null`, `false`, `0` and `""`. Every other value, including any date, id, array or object, passes. |
| Values.Stored | donations.js:45-59 | A stored top-level field is never `undefined`: an `undefined` field is kept as `null`, and every other value is kept as it is. |
| Values.Serialize | donations.js:45-59 | The stored document has the same fields as the one handed to `insertOne`, each holding its stored value. |
| Auth.Split | middleware.js:31 | `split(" ")` yields at least one piece, no piece holds a space, and there are two or more pieces exactly when the header holds a space. |
| Collection.Page | donations.js:113-114 | `skip(n).limit(m)` yields the items at positions `n`, `n+1`, … of the listing. Past the end it is empty. Otherwise it holds `min(m, remaining)` items, or all the rest when `m` is 0. |
| Documents.Find | donations.js:111-115 | `find(filter)` yields only stored documents that match the filter, and every stored document that matches appears in it. |
| Documents.InsertOne | donations.js:45-59 | `insertOne` is refused exactly when the generated `_id` is already taken. Otherwise the collection gains one document at the end: the serialised input with that `_id`. |
| Documents.SetFields | blog.js:44-47 | After `$set`, the document has its old fields plus the updated ones. Each updated field holds its stored value, and every field not in `$set` keeps its old value. |
| Documents.FindAppend | donations.js:111-115 | `find` on an empty collection is empty, and a document added at the end is last in the result exactly when it matches. So `find` yields every match once each, in natural order. |
| Documents.FindOne | donations.js:81 | `findOne` returns the first matching document, or nothing exactly when none matches. |
| Documents.UpdateOne | donations.js:150-153 | `updateOne` with `$set` changes only the first match, to the `$set` result. `matchedCount` is 0 exactly when nothing matches. `modifiedCount` is 1 exactly when the collection changed. The update is refused exactly when it would change the first match's `_id`. |
| Documents.UpdateById | donations.js:150-155 | `updateOne({ _id }, { $set })` is refused exactly when it would change the `_id` of the first document holding it. It matches nothing exactly when no document holds the `_id`. Otherwise that document gets the `$set`. |
| Documents.DeleteOne | donations.js:175 | `deleteOne` removes exactly the first match and nothing else. `deletedCount` is 0 exactly when nothing matches, and then nothing changes. |
| Documents.InsertKeepsWellFormed | donations.js:45-59 | An accepted insert keeps every `_id` present and distinct. |
| Documents.UpdateKeepsWellFormed | donations.js:150-153 | An accepted `$set` keeps every `_id` present and distinct. |
| Documents.DeleteKeepsWellFormed | donations.js:175 | A delete keeps every `_id` present and distinct. |
| Documents.FindAll | users.js:110 | `find({})` returns the whole collection, in order. |

## Left out

- Firebase Admin initialisation (middleware.js:1-18) and the token cryptography are left out. The identity provider is an oracle `Auth.Verifier`.
- The uuid generator is a parameter `sessionId`. Distinct session ids rest on the stated assumption that it yields an unused id, not on a proof about randomness.
- `ObjectId.isValid` and the `new ObjectId(id)` conversion are a predicate parameter `isValid`. An id it refuses makes the conversion throw, which the handlers answer with 500. The hex canonicalisation of ids is not modelled.
- `Date` construction and ISO-string formatting are left out. Timestamps are integer milliseconds. `new Date(donationDate)` is a function parameter.
- `Number(...)` and `parseInt(...)` coercion of query strings is left out. Handlers take the parsed naturals, with `page` as an integer so that page 0 and below are covered. A parameter the query leaves out is `None` and gets the source's default. NaN, negative limits and array-valued query parameters are not modelled.
- JSON numbers are integers (`Values.Num` holds an `int`). Fractional numbers in bodies or stored documents, and the floating-point arithmetic of `Math.ceil`, are not modelled.
- Donations.PagedDonations: the `sort({ createdAt: -1 })` of donations.js:208 is left out. Pages are cut from the filtered listing in collection order.
- The MongoDB driver is reduced to equality filters, first-match single-document operations, `$set` on top-level fields, `skip`/`limit` (limit 0 meaning none) and the `_id` unique index. Other driver behaviour is left out: an equality filter on an array field matching any element (a `$set` at users.js:86-89 can store `email` as an array, which `findOne({ email })` at users.js:51 would then find), dotted or `$`-prefixed field names, `null` matching a missing field, the error for an empty `$set`, and nested documents.
- Sessions.ReadSession, Sessions.DestroySession: these take the `session` cookie as a string. Cookie parsing (index.js:52) turns a cookie written `j:<json>` into the parsed JSON value, which reaches the `findOne`/`deleteOne` filter unchecked. That path is modelled only by `Sessions.ReadSessionAsWritten` and `Sessions.DestroySessionAsWritten`, and only for the `$ne` operator; the other query operators are left out. See "## Findings".
- Three request shapes are left out. An object-valued query parameter such as `?status[$ne]=x` becomes an operator filter at donations.js:108; the model takes `status` as a plain string. A negative `cursor` makes `skip` throw and gives 500 at donations.js:113; the model takes `cursor` as a natural. The donation, user and blog handlers are modelled as if `verifyToken` had already accepted the request, so its 401 path in front of them is modelled only by `Auth.VerifyToken` itself.
- Request bodies are always objects. A missing or non-object body, which makes destructuring throw before the handler's `try`, is left out.
- index.js (server start-up, router wiring, CORS, logging, dotenv) is not part of this model.
- Logging, `async` scheduling and concurrent requests are left out. Each handler runs atomically on one collection state.
- Session expiry is never checked by the read handler, and the model follows that. `lastAccessedAt` is set once and never refreshed.

## Findings

| source | as written | input that shows it | evidently intended | confidence | as-written member | corrected member |
|---|---|---|---|---|---|---|
| final-app-server/session.js:64-72 | The parsed `session` cookie goes into `findOne({ sessionId })` unchecked, so a JSON cookie becomes a query operator. | Cookie `session=j:{"$ne":null}` against any non-empty session store: 200 with the first record's `userId` and `sessionId`. | A session is returned only for a cookie that is its id. | high (not executed) | Sessions.ReadSessionAsWritten, Sessions.InjectedCookieTakesFirstSession | Sessions.ReadSessionChecked |
| final-app-server/session.js:39-51 | The parsed `session` cookie goes into `deleteOne({ sessionId })` unchecked. | Cookie `session=j:{"$ne":null}` against any non-empty session store: the first record is deleted, and the reply is 200. | A session is removed only for a cookie that is its id. | high (not executed) | Sessions.DestroySessionAsWritten, Sessions.InjectedCookieTakesFirstSession | Sessions.DestroySessionChecked |

=== FILE: auth.dfy ===
/** The bearer-token gate placed in front of every protected route: it reads
    the `Authorization` header, hands the token to the identity provider, and
    either rejects the request with 401 or attaches the decoded claims and
    passes control to the next handler. The identity provider is an oracle
    (`Verifier`); the gate's behaviour is recorded as a trace of what it did. */
module Auth {
  import opened Values

  /** The claims of a verified ID token; `uid` identifies the user. */
  datatype Claims = Claims(uid: string, extra: map<string, Value>)

  /** The identity provider's check of an ID token: the decoded claims, or
      `None` when verification throws (bad signature, expired, malformed). */
  type Verifier = string -> Option<Claims>

  const BEARER: string := "Bearer "

  /** `s.split(sep)` for a one-character separator. */
  function Split(s: string, sep: char): (parts: seq<string>)
    ensures |parts| >= 1
    ensures forall i :: 0 <= i < |parts| ==> sep !in parts[i]
    ensures sep in s <==> |parts| >= 2
    decreases |s|
  {
    if |s| == 0 then [""]
    else
      var rest := Split(s[1..], sep);
      assert s == [s[0]] + s[1..];
      if s[0] == sep then [""] + rest
      else [[s[0]] + rest[0]] + rest[1..]
  }

  /** `parts.join(sep)`. */
  function Join(parts: seq<string>, sep: char): string
    requires |parts| >= 1
  {
    if |parts| == 1 then parts[0] else parts[0] + [sep] + Join(parts[1..], sep)
  }

  /** The longest prefix of `s` without `sep`. */
  function TakeUntil(s: string, sep: char): (r: string)
    ensures r <= s && sep !in r
    ensures |r| < |s| ==> s[|r|] == sep
  {
    if |s| == 0 || s[0] == sep then "" else [s[0]] + TakeUntil(s[1..], sep)
  }

  /** Joining the pieces of a split with the separator gives the string back. */
  lemma {:induction false} SplitThenJoin(s: string, sep: char)
    ensures Join(Split(s, sep), sep) == s
    decreases |s|
  {
    if |s| > 0 {
      var rest := Split(s[1..], sep);
      SplitThenJoin(s[1..], sep);
      if s[0] == sep {
        JoinEmptyHead(rest, sep);
      } else {
        JoinExtendedHead(s[0], rest, sep);
      }
      assert s == [s[0]] + s[1..];
    }
  }

  /** An empty first piece contributes only its separator. */
  lemma JoinEmptyHead(rest: seq<string>, sep: char)
    requires |rest| >= 1
    ensures Join([""] + rest, sep) == [sep] + Join(rest, sep)
  {
    assert ([""] + rest)[1..] == rest;
  }

  /** Extending the first piece by a character extends the join by it. */
  lemma JoinExtendedHead(c: char, rest: seq<string>, sep: char)
    requires |rest| >= 1
    ensures Join([[c] + rest[0]] + rest[1..], sep) == [c] + Join(rest, sep)
  {
    var parts := [[c] + rest[0]] + rest[1..];
    if |rest| > 1 {
      assert parts[1..] == rest[1..];
    }
  }

  /** A piece without the separator splits to itself. */
  lemma {:induction false} SplitSinglePiece(p: string, sep: char)
    requires sep !in p
    ensures Split(p, sep) == [p]
    decreases |p|
  {
    if |p| > 0 {
      SplitSinglePiece(p[1..], sep);
      assert p == [p[0]] + p[1..];
    }
  }

  /** Splitting `p + sep + t` with `p` free of the separator gives `p` first,
      then the pieces of `t`. */
  lemma {:induction false} SplitAtFirstSeparator(p: string, t: string, sep: char)
    requires sep !in p
    ensures Split(p + [sep] + t, sep) == [p] + Split(t, sep)
    decreases |p|
  {
    var s := p + [sep] + t;
    if |p| == 0 {
      assert s[1..] == t;
    } else {
      assert s[1..] == p[1..] + [sep] + t;
      SplitAtFirstSeparator(p[1..], t, sep);
      assert p == [p[0]] + p[1..];
    }
  }

  /** Splitting the join of separator-free pieces gives the pieces back. */
  lemma {:induction false} JoinThenSplit(parts: seq<string>, sep: char)
    requires |parts| >= 1
    requires forall i :: 0 <= i < |parts| ==> sep !in parts[i]
    ensures Split(Join(parts, sep), sep) == parts
    decreases |parts|
  {
    if |parts| == 1 {
      SplitSinglePiece(parts[0], sep);
    } else {
      JoinThenSplit(parts[1..], sep);
      SplitAtFirstSeparator(parts[0], Join(parts[1..], sep), sep);
      assert parts == [parts[0]] + parts[1..];
    }
  }

  /** The first piece of a split is the text before the first separator. */
  lemma {:induction false} SplitHead(s: string, sep: char)
    ensures Split(s, sep)[0] == TakeUntil(s, sep)
    decreases |s|
  {
    if |s| > 0 {
      SplitHead(s[1..], sep);
    }
  }

  /** The header carries the `Bearer ` scheme: `authHeader` is present and
      starts with "Bearer ". */
  predicate HasBearer(authorization: Option<string>) {
    authorization.Some? && BEARER <= authorization.value
  }

  /** The token as the identity provider sees it: the text after "Bearer "
      up to the next space. */
  function BearerToken(header: string): string
    requires BEARER <= header
  {
    TakeUntil(header[|BEARER|..], ' ')
  }

  /** `authHeader.split(" ")[1]` is the text after "Bearer " up to the next space. */
  lemma SecondPieceIsBearerToken(header: string)
    requires BEARER <= header
    ensures |Split(header, ' ')| >= 2
    ensures Split(header, ' ')[1] == BearerToken(header)
  {
    var t := header[|BEARER|..];
    assert header == "Bearer" + [' '] + t;
    SplitAtFirstSeparator("Bearer", t, ' ');
    SplitHead(t, ' ');
  }

  /** What the gate did with one request: the tokens it handed to the
      identity provider, how often it called `next`, the claims it attached
      as `req.user`, and the rejection it sent, if any. */
  datatype GateResult = GateResult(
    verifierCalls: seq<string>,
    nextCalls: nat,
    user: Option<Claims>,
    rejection: Option<Response>)

  const NO_TOKEN := Response(401, Message("error", "Unauthorized: No token provided"))
  const INVALID_TOKEN := Response(401, Message("error", "Unauthorized: Invalid token"))

  /** The `verifyToken` middleware. */
  function VerifyToken(authorization: Option<string>, verify: Verifier): (g: GateResult)
    ensures !HasBearer(authorization) ==> g == GateResult([], 0, None, Some(NO_TOKEN))
    ensures HasBearer(authorization) ==> g.verifierCalls == [BearerToken(authorization.value)]
    ensures HasBearer(authorization) && verify(BearerToken(authorization.value)).Some? ==>
              g.user == verify(BearerToken(authorization.value)) && g.nextCalls == 1 && g.rejection.None?
    ensures HasBearer(authorization) && verify(BearerToken(authorization.value)).None? ==>
              g.user.None? && g.nextCalls == 0 && g.rejection == Some(INVALID_TOKEN)
    ensures (g.nextCalls == 1 && g.rejection.None?) || (g.nextCalls == 0 && g.rejection.Some? && g.rejection.value.status == 401)
    ensures g.user.Some? <==> g.nextCalls == 1
    ensures |g.verifierCalls| <= 1
  {
    if !HasBearer(authorization) then GateResult([], 0, None, Some(NO_TOKEN))
    else
      SecondPieceIsBearerToken(authorization.value);
      var idToken := Split(authorization.value, ' ')[1];
      match verify(idToken)
      case Some(decoded) => GateResult([idToken], 1, Some(decoded), None)
      case None => GateResult([idToken], 0, None, Some(INVALID_TOKEN))
  }
}

=== FILE: blog.dfy ===
/** The blog routes: create a post with a "draft" default status, update a
    post by overwriting its four content fields, delete a post, and fetch one
    post or all of them. `isValid` stands for the id check that
    `new ObjectId(id)` performs; an id it refuses makes the handler throw,
    which the handlers answer with 500, as they do when the store throws
    (`fails`). */
module Blog {
  import opened Values
  import opened Collection
  import opened Documents

  /** The fields `/createPost` copies as they arrive and `/updatePost` overwrites. */
  const POST_FIELDS: seq<string> := ["title", "content", "picture"]

  predicate HasRequiredFields(body: Doc) {
    Truthy(Field(body, "title")) && Truthy(Field(body, "content"))
  }

  /** The document `/createPost` inserts. */
  function PostDoc(body: Doc, now: int): Doc {
    map["status" := Or(Field(body, "status"), Str("draft")), "createdAt" := Date(now)]
    + map k | k in POST_FIELDS :: Field(body, k)
  }

  /** `d` is the stored form of the post `/createPost` builds from `body`:
      exactly the content fields (null where absent), the status or "draft",
      the creation time and the `_id`. */
  ghost predicate IsNewPost(d: Doc, body: Doc, now: int, id: string) {
    && HasId(d, id)
    && (forall k :: k in d <==> k in POST_FIELDS || k == "status" || k == "createdAt" || k == ID)
    && (forall k :: k in POST_FIELDS ==> d[k] == Stored(Field(body, k)))
    && d["status"] == Or(Field(body, "status"), Str("draft"))
    && d["createdAt"] == Date(now)
  }

  lemma StoredPost(body: Doc, now: int, id: string)
    ensures IsNewPost(WithId(PostDoc(body, now), id), body, now, id)
  {
    PostDocFields(body, now);
  }

  /** The post document before the store adds its `_id`. */
  lemma PostDocFields(body: Doc, now: int)
    ensures var doc := PostDoc(body, now);
            && (forall k :: k in doc <==> k in POST_FIELDS || k == "status" || k == "createdAt")
            && (forall k :: k in POST_FIELDS ==> doc[k] == Field(body, k))
            && doc["status"] == Or(Field(body, "status"), Str("draft"))
            && doc["createdAt"] == Date(now)
  {
    assert "status" !in POST_FIELDS && "createdAt" !in POST_FIELDS;
  }

  /** `POST /createPost`; `newId` is the `_id` the store generates. */
  function CreatePost(body: Doc, newId: string, now: int, fails: bool, store: Store): (r: Handled)
    ensures !HasRequiredFields(body) ==>
              r == Handled(Response(400, Message("message", "Missing required fields: title, content.")), store)
    ensures HasRequiredFields(body) && (fails || IdTaken(store, newId)) ==>
              r == Handled(Response(500, Message("message", "Failed to create post")), store)
    ensures r.response.status == 201 <==> HasRequiredFields(body) && !fails && !IdTaken(store, newId)
    ensures r.response.status != 201 ==> r.store == store
    ensures r.response.status == 201 ==>
              && r.response.body == Obj(map["postId" := ObjectId(newId)])
              && |r.store| == |store| + 1
              && r.store[..|store|] == store
              && IsNewPost(r.store[|store|], body, now, newId)
  {
    if !HasRequiredFields(body) then
      Handled(Response(400, Message("message", "Missing required fields: title, content.")), store)
    else if fails then
      Handled(Response(500, Message("message", "Failed to create post")), store)
    else
      match InsertOne(store, newId, PostDoc(body, now))
      case None => Handled(Response(500, Message("message", "Failed to create post")), store)
      case Some(s') =>
        assert s'[..|store|] == store;
        StoredPost(body, now, newId);
        Handled(Response(201, Obj(map["postId" := ObjectId(newId)])), s')
  }

  /** The `$set` document of `/updatePost`: all four content fields, absent
      ones included, and the update time. */
  function PostUpdate(body: Doc, now: int): Doc {
    map["status" := Field(body, "status"), "updatedAt" := Date(now)]
    + map k | k in POST_FIELDS :: Field(body, k)
  }

  /** The `$set` of `/updatePost` names exactly the four content fields and
      `updatedAt`, absent fields included. */
  lemma PostUpdateFields(body: Doc, now: int)
    ensures var upd := PostUpdate(body, now);
            && (forall k :: k in upd <==> k in POST_FIELDS || k == "status" || k == "updatedAt")
            && (forall k :: k in POST_FIELDS ==> upd[k] == Field(body, k))
            && upd["status"] == Field(body, "status")
            && upd["updatedAt"] == Date(now)
  {
    assert "status" !in POST_FIELDS && "updatedAt" !in POST_FIELDS;
  }

  /** `PATCH /updatePost/:id`. */
  function UpdatePost(id: string, body: Doc, isValid: string -> bool, now: int, fails: bool, store: Store): (r: Handled)
    ensures id == "" ==> r == Handled(Response(400, Message("message", "Missing required parameter: id.")), store)
    ensures id != "" && (!isValid(id) || fails) ==>
              r == Handled(Response(500, Message("message", "Failed to update post")), store)
    ensures id != "" && isValid(id) && !fails && !IdTaken(store, id) ==>
              r == Handled(Response(404, Message("message", "Post not found.")), store)
    ensures r.response.status == 200 <==> id != "" && isValid(id) && !fails && IdTaken(store, id)
    ensures r.response.status == 200 ==>
              && r.response.body == Message("message", "Post updated successfully.")
              && exists i :: FirstWithId(store, id, i) && KeepsId(store[i], PostUpdate(body, now))
                             && r.store == store[i := SetFields(store[i], PostUpdate(body, now))]
    ensures r.response.status != 200 ==> r.store == store
  {
    if id == "" then Handled(Response(400, Message("message", "Missing required parameter: id.")), store)
    else if !isValid(id) || fails then Handled(Response(500, Message("message", "Failed to update post")), store)
    else
      var upd := PostUpdate(body, now);
      assert ID !in upd by { PostUpdateFields(body, now); }
      match UpdateOne(store, IdFilter(id), upd)
      case None =>
        assert false;
        Handled(Response(500, Message("message", "Failed to update post")), store)
      case Some(u) =>
        if u.matched == 0 then
          assert !IdTaken(store, id) by {
            forall j | 0 <= j < |store| ensures !HasId(store[j], id) {
              IdFilterMatches(id, store[j]);
            }
          }
          Handled(Response(404, Message("message", "Post not found.")), store)
        else
          var i :| FirstMatching(store, IdFilter(id), i) && KeepsId(store[i], upd)
                   && u.store == store[i := SetFields(store[i], upd)];
          FirstMatchingId(store, id, i);
          Handled(Response(200, Message("message", "Post updated successfully.")), u.store)
  }

  /** `DELETE /deletePost/:id`. */
  function DeletePost(id: string, isValid: string -> bool, fails: bool, store: Store): (r: Handled)
    ensures id == "" ==> r == Handled(Response(400, Message("message", "Missing required parameter: id.")), store)
    ensures id != "" && (!isValid(id) || fails) ==>
              r == Handled(Response(500, Message("message", "Failed to delete post")), store)
    ensures id != "" && isValid(id) && !fails && !IdTaken(store, id) ==>
              r == Handled(Response(404, Message("message", "Post not found.")), store)
    ensures r.response.status == 200 <==> id != "" && isValid(id) && !fails && IdTaken(store, id)
    ensures r.response.status == 200 ==>
              && r.response.body == Message("message", "Post deleted successfully.")
              && exists i :: FirstWithId(store, id, i) && r.store == RemoveAt(store, i)
    ensures r.response.status != 200 ==> r.store == store
  {
    if id == "" then Handled(Response(400, Message("message", "Missing required parameter: id.")), store)
    else if !isValid(id) || fails then Handled(Response(500, Message("message", "Failed to delete post")), store)
    else
      var (s', deleted) := DeleteOne(store, IdFilter(id));
      if deleted == 0 then
        assert !IdTaken(store, id) by {
          forall j | 0 <= j < |store| ensures !HasId(store[j], id) {
            IdFilterMatches(id, store[j]);
          }
        }
        Handled(Response(404, Message("message", "Post not found.")), store)
      else
        var i :| 0 <= i < |store| && Matches(IdFilter(id), store[i])
                 && (forall j :: 0 <= j < i ==> !Matches(IdFilter(id), store[j])) && s' == RemoveAt(store, i);
        forall j | 0 <= j <= i ensures Matches(IdFilter(id), store[j]) <==> HasId(store[j], id) {
          IdFilterMatches(id, store[j]);
        }
        Handled(Response(200, Message("message", "Post deleted successfully.")), s')
  }

  /** `GET /getPost/:id?`: one post when an id is given, otherwise all posts. */
  function GetPost(id: Option<string>, isValid: string -> bool, fails: bool, store: Store): (r: Handled)
    ensures r.store == store
    ensures id.Some? && id.value != "" ==>
              && ((!isValid(id.value) || fails) ==> r.response == Response(500, Message("message", "Failed to fetch posts")))
              && (isValid(id.value) && !fails && !IdTaken(store, id.value) ==>
                    r.response == Response(404, Message("message", "Post not found.")))
              && (isValid(id.value) && !fails && IdTaken(store, id.value) ==>
                    exists i :: FirstWithId(store, id.value, i) && r.response == Response(200, Obj(store[i])))
    ensures !(id.Some? && id.value != "") ==>
              && (fails ==> r.response == Response(500, Message("message", "Failed to fetch posts")))
              && (!fails ==> r.response == Response(200, Docs(store)))
  {
    if id.Some? && id.value != "" then
      if !isValid(id.value) || fails then
        Handled(Response(500, Message("message", "Failed to fetch posts")), store)
      else
        match FindOne(store, IdFilter(id.value))
        case None =>
          assert !IdTaken(store, id.value) by {
            forall j | 0 <= j < |store| ensures !HasId(store[j], id.value) {
              IdFilterMatches(id.value, store[j]);
            }
          }
          Handled(Response(404, Message("message", "Post not found.")), store)
        case Some(d) =>
          var i :| 0 <= i < |store| && store[i] == d && Matches(IdFilter(id.value), d)
                   && forall j :: 0 <= j < i ==> !Matches(IdFilter(id.value), store[j]);
          FirstMatchingId(store, id.value, i);
          Handled(Response(200, Obj(d)), store)
    else if fails then
      Handled(Response(500, Message("message", "Failed to fetch posts")), store)
    else
      FindAll(store);
      Handled(Response(200, Docs(Find(store, map[]))), store)
  }


  /** A created post reads back by its new id, in "draft" unless a status was given. */
  lemma CreateThenGetPost(body: Doc, newId: string, now: int, isValid: string -> bool, store: Store)
    requires WellFormed(store)
    requires newId != "" && isValid(newId)
    requires HasRequiredFields(body) && !IdTaken(store, newId)
    ensures var s' := CreatePost(body, newId, now, false, store).store;
            && WellFormed(s')
            && GetPost(Some(newId), isValid, false, s').response == Response(200, Obj(s'[|store|]))
            && s'[|store|]["status"] == Or(Field(body, "status"), Str("draft"))
  {
    InsertKeepsWellFormed(store, newId, PostDoc(body, now));
    FindInserted(store, newId, PostDoc(body, now));
  }

  /** After an update the post reads back with the four content fields
      replaced, as sent or null where the body left them out, and every other
      field as before. */
  lemma UpdateThenGetPost(id: string, body: Doc, isValid: string -> bool, now: int, store: Store)
    requires WellFormed(store)
    requires id != "" && isValid(id) && IdTaken(store, id)
    ensures var s' := UpdatePost(id, body, isValid, now, false, store).store;
            var got := GetPost(Some(id), isValid, false, s').response;
            && WellFormed(s')
            && got.status == 200 && got.body.Obj?
            && ShowsUpdate(got.body.fields, body, now)
  {
    var s' := UpdatePost(id, body, isValid, now, false, store).store;
    var i := UpdatedPostById(id, body, isValid, now, store);
    GetPostByUniqueId(id, isValid, s', i);
  }

  /** The post an accepted update changed: the one holding `id`, now showing
      the update, and still the only one holding `id`. */
  lemma UpdatedPostById(id: string, body: Doc, isValid: string -> bool, now: int, store: Store) returns (i: nat)
    requires WellFormed(store)
    requires id != "" && isValid(id) && IdTaken(store, id)
    ensures var s' := UpdatePost(id, body, isValid, now, false, store).store;
            && id != "" && isValid(id)
            && WellFormed(s') && i < |s'| && HasId(s'[i], id)
            && ShowsUpdate(s'[i], body, now)
            && forall j :: 0 <= j < |s'| && HasId(s'[j], id) ==> j == i
  {
    var upd := PostUpdate(body, now);
    var s' := UpdatePost(id, body, isValid, now, false, store).store;
    i :| 0 <= i < |store| && HasId(store[i], id) && KeepsId(store[i], upd)
         && s' == store[i := SetFields(store[i], upd)];
    SetFieldsKeepsId(store, i, id, upd);
    UpdatedPostFields(store[i], body, now);
    assert s'[i] == SetFields(store[i], upd);
  }

  /** Fetching by an id only one post holds returns that post. */
  lemma GetPostByUniqueId(id: string, isValid: string -> bool, store: Store, i: nat)
    requires id != "" && isValid(id) && i < |store| && HasId(store[i], id)
    requires forall j :: 0 <= j < |store| && HasId(store[j], id) ==> j == i
    ensures GetPost(Some(id), isValid, false, store).response == Response(200, Obj(store[i]))
  {
  }


  /** `post` holds the content fields of `body`, null for the ones left out,
      and the update time. */
  predicate ShowsUpdate(post: Doc, body: Doc, now: int) {
    && (forall k :: k in POST_FIELDS ==> k in post && post[k] == Stored(Field(body, k)))
    && "status" in post && post["status"] == Stored(Field(body, "status"))
    && "updatedAt" in post && post["updatedAt"] == Date(now)
  }

  /** A post after `/updatePost` shows the update, whatever it held before. */
  lemma UpdatedPostFields(post: Doc, body: Doc, now: int)
    ensures ShowsUpdate(SetFields(post, PostUpdate(body, now)), body, now)
  {
    PostUpdateFields(body, now);
  }

  /** Once a post is deleted, it can be neither fetched nor deleted again. */
  lemma DeleteThenGone(id: string, isValid: string -> bool, store: Store)
    requires WellFormed(store)
    requires id != "" && isValid(id) && IdTaken(store, id)
    ensures var s' := DeletePost(id, isValid, false, store).store;
            && WellFormed(s')
            && GetPost(Some(id), isValid, false, s').response.status == 404
            && DeletePost(id, isValid, false, s').response.status == 404
  {
    DeleteKeepsWellFormed(store, IdFilter(id));
    DeleteByIdRemovesIt(store, id);
  }
}

=== FILE: collection.dfy ===
/** A store collection as a sequence in natural (insertion) order, with the
    first-match semantics of `findOne`, `updateOne` and `deleteOne`, the
    filtering of `find`, and the `skip`/`limit` slicing of a cursor. */
module Collection {
  import opened Values

  /** Position of the first element satisfying `p`: the one a single-document
      operation acts on. */
  function FirstMatch<T>(c: seq<T>, p: T -> bool): (r: Option<nat>)
    ensures r.Some? ==> r.value < |c| && p(c[r.value])
    ensures r.Some? ==> forall j :: 0 <= j < r.value ==> !p(c[j])
    ensures r.None? <==> forall j :: 0 <= j < |c| ==> !p(c[j])
    decreases |c|
  {
    if |c| == 0 then None
    else if p(c[0]) then Some(0)
    else match FirstMatch(c[1..], p)
      case None => None
      case Some(i) => Some(i + 1)
  }

  /** Whether some element satisfies `p`. */
  predicate Any<T>(c: seq<T>, p: T -> bool) {
    exists j :: 0 <= j < |c| && p(c[j])
  }

  /** `find(filter).toArray()`: the matching elements, in order. */
  function Filter<T>(c: seq<T>, p: T -> bool): (r: seq<T>)
    ensures |r| <= |c|
    ensures forall i :: 0 <= i < |r| ==> p(r[i])
    ensures forall i :: 0 <= i < |r| ==> r[i] in c
    ensures forall j :: 0 <= j < |c| && p(c[j]) ==> c[j] in r
    decreases |c|
  {
    if |c| == 0 then []
    else (if p(c[0]) then [c[0]] else []) + Filter(c[1..], p)
  }

  /** Filtering is built from the far end too: appending an element appends
      it to the result exactly when it passes. With `Filter([], p) == []`
      this fixes the result: every passing element, once each, in order. */
  lemma {:induction false} FilterAppend<T>(c: seq<T>, x: T, p: T -> bool)
    ensures Filter([], p) == []
    ensures Filter(c + [x], p) == Filter(c, p) + (if p(x) then [x] else [])
    decreases |c|
  {
    if |c| > 0 {
      assert (c + [x])[1..] == c[1..] + [x];
      FilterAppend(c[1..], x, p);
    }
  }

  /** The sequence without its element at `i`. */
  function RemoveAt<T>(c: seq<T>, i: nat): (r: seq<T>)
    requires i < |c|
    ensures |r| == |c| - 1
    ensures multiset(r) + multiset{c[i]} == multiset(c)
    ensures forall j :: 0 <= j < i ==> r[j] == c[j]
    ensures forall j :: i <= j < |r| ==> r[j] == c[j + 1]
  {
    assert c == c[..i] + [c[i]] + c[i + 1..];
    c[..i] + c[i + 1..]
  }

  /** `deleteOne`: the collection afterwards and the `deletedCount`. */
  function DeleteFirst<T>(c: seq<T>, p: T -> bool): (r: (seq<T>, nat))
    ensures r.1 <= 1
    ensures r.1 == 0 <==> !Any(c, p)
    ensures r.1 == 0 ==> r.0 == c
    ensures r.1 == 1 ==> |r.0| == |c| - 1
    ensures r.1 == 1 ==> exists i :: 0 <= i < |c| && p(c[i]) && (forall j :: 0 <= j < i ==> !p(c[j]))
                                     && r.0 == RemoveAt(c, i)
  {
    match FirstMatch(c, p)
    case None => (c, 0)
    case Some(i) => (RemoveAt(c, i), 1)
  }

  function Min(a: nat, b: nat): nat {
    if a <= b then a else b
  }

  /** `cursor.skip(skip).limit(limit)`; a limit of 0 means "no limit", as it
      does for the store's cursors. */
  function Page<T>(s: seq<T>, skip: nat, limit: nat): (r: seq<T>)
    ensures skip >= |s| ==> r == []
    ensures skip < |s| && limit == 0 ==> |r| == |s| - skip
    ensures skip < |s| && limit > 0 ==> |r| == Min(limit, |s| - skip)
    ensures forall i :: 0 <= i < |r| ==> skip + i < |s| && r[i] == s[skip + i]
  {
    if skip >= |s| then []
    else if limit == 0 || skip + limit > |s| then s[skip..]
    else s[skip..skip + limit]
  }

  /** `Math.ceil(total / limit)` on naturals. */
  function CeilDiv(total: nat, limit: nat): (n: nat)
    requires limit > 0
    ensures n * limit >= total
    ensures n > 0 ==> (n - 1) * limit < total
  {
    var n := (total + limit - 1) / limit;
    DivBounds(total + limit - 1, limit);
    n
  }

  lemma DivBounds(a: nat, b: nat)
    requires b > 0
    ensures (a / b) * b <= a < (a / b) * b + b
  {
  }

  /** Page number `page` (counted from 1) of size `limit`. */
  function PageNo<T>(s: seq<T>, page: nat, limit: nat): seq<T>
    requires page >= 1
  {
    Page(s, (page - 1) * limit, limit)
  }

  /** Pages 1..n of size `limit`, concatenated. */
  function FirstPages<T>(s: seq<T>, limit: nat, n: nat): seq<T> {
    if n == 0 then [] else FirstPages(s, limit, n - 1) + PageNo(s, n, limit)
  }

  lemma MulPred(n: nat, k: nat)
    requires n > 0
    ensures (n - 1) * k + k == n * k
  {
  }

  /** The first n pages are exactly the first n * limit elements. */
  lemma {:induction false} FirstPagesArePrefix<T>(s: seq<T>, limit: nat, n: nat)
    requires limit > 0
    ensures FirstPages(s, limit, n) == s[..Min(n * limit, |s|)]
  {
    if n > 0 {
      FirstPagesArePrefix(s, limit, n - 1);
      MulPred(n, limit);
      PrefixThenPage(s, (n - 1) * limit, limit);
    }
  }

  /** The prefix up to `skip` followed by the page at `skip` is the prefix up
      to `skip + limit`. */
  lemma PrefixThenPage<T>(s: seq<T>, skip: nat, limit: nat)
    requires limit > 0
    ensures s[..Min(skip, |s|)] + Page(s, skip, limit) == s[..Min(skip + limit, |s|)]
  {
    if skip < |s| {
      var hi := Min(skip + limit, |s|);
      assert Page(s, skip, limit) == s[skip..hi];
      assert s[..skip] + s[skip..hi] == s[..hi];
    }
  }

  /** A full page followed by what comes after it is everything from `skip` on. */
  lemma FullPageThenRest<T>(s: seq<T>, skip: nat, limit: nat)
    requires limit > 0 && skip + limit <= |s|
    ensures Page(s, skip, limit) + s[skip + limit..] == s[skip..]
  {
    assert Page(s, skip, limit) == s[skip..skip + limit];
  }

  /** A page that runs past the end holds everything from `skip` on. */
  lemma LastPage<T>(s: seq<T>, skip: nat, limit: nat)
    requires skip + limit > |s|
    ensures Page(s, skip, limit) == s[Min(skip, |s|)..]
  {
  }

  /** One page of a cursor listing: the items and the cursor of the next page. */
  datatype CursorPage<T> = CursorPage(items: seq<T>, nextCursor: Option<nat>)

  /** The items of `s` from position `cursor` on, at most `limit` of them
      (0: no limit), with a next cursor exactly when the page came back full. */
  function CursorStep<T>(s: seq<T>, limit: nat, cursor: nat): (p: CursorPage<T>)
    ensures |p.items| <= |s|
    ensures forall i :: 0 <= i < |p.items| ==> cursor + i < |s| && p.items[i] == s[cursor + i]
    ensures limit > 0 && cursor < |s| ==> |p.items| == Min(limit, |s| - cursor)
    ensures limit == 0 && cursor < |s| ==> |p.items| == |s| - cursor
    ensures cursor >= |s| ==> p.items == []
    ensures limit > 0 ==> (p.nextCursor.Some? <==> cursor + limit <= |s|)
    ensures limit == 0 && cursor < |s| ==> p.nextCursor.None?
    ensures p.nextCursor.Some? ==> p.nextCursor.value == cursor + limit
  {
    var items := Page(s, cursor, limit);
    CursorPage(items, if |items| == limit then Some(cursor + limit) else None)
  }

  /** What a client gets by following `nextCursor` from `cursor` until it is null. */
  function FollowCursor<T>(s: seq<T>, limit: nat, cursor: nat): seq<T>
    requires limit > 0
    decreases |s| - cursor
  {
    var p := CursorStep(s, limit, cursor);
    if p.nextCursor.None? then p.items else p.items + FollowCursor(s, limit, p.nextCursor.value)
  }

  /** Following the cursors yields every item from `cursor` on, each once and
      in order; from cursor 0 that is all of them. */
  lemma {:induction false} FollowCursorYieldsRest<T>(s: seq<T>, limit: nat, cursor: nat)
    requires limit > 0
    ensures FollowCursor(s, limit, cursor) == s[Min(cursor, |s|)..]
    decreases |s| - cursor
  {
    if cursor + limit <= |s| {
      FollowCursorYieldsRest(s, limit, cursor + limit);
      FollowFullPage(s, limit, cursor);
      FullPageThenRest(s, cursor, limit);
    } else {
      FollowLastPage(s, limit, cursor);
      LastPage(s, cursor, limit);
    }
  }

  /** A full page is followed by the pages after it. */
  lemma FollowFullPage<T>(s: seq<T>, limit: nat, cursor: nat)
    requires limit > 0 && cursor + limit <= |s|
    ensures FollowCursor(s, limit, cursor) == Page(s, cursor, limit) + FollowCursor(s, limit, cursor + limit)
  {
    assert CursorStep(s, limit, cursor).nextCursor == Some(cursor + limit);
  }

  /** A page that is not full is the last one. */
  lemma FollowLastPage<T>(s: seq<T>, limit: nat, cursor: nat)
    requires limit > 0 && cursor + limit > |s|
    ensures FollowCursor(s, limit, cursor) == Page(s, cursor, limit)
  {
  }

  /** With limit 0 (no limit) and a cursor at or past the end, the empty page
      counts as full and the same cursor comes back as the next one, so a
      client following it never stops. */
  lemma UnlimitedExhaustedCursorRepeats<T>(s: seq<T>, cursor: nat)
    requires cursor >= |s|
    ensures CursorStep(s, 0, cursor) == CursorPage([], Some(cursor))
  {
  }

  /** Walking pages 1..ceil(|s|/limit) yields every element exactly once, in
      order; every page within that range is non-empty and every page after
      it is empty. */
  lemma PagesCoverAll<T>(s: seq<T>, limit: nat)
    requires limit > 0
    ensures FirstPages(s, limit, CeilDiv(|s|, limit)) == s
    ensures forall p: nat :: 1 <= p <= CeilDiv(|s|, limit) ==> PageNo(s, p, limit) != []
    ensures forall p: nat :: p > CeilDiv(|s|, limit) ==> PageNo(s, p, limit) == []
  {
    var n := CeilDiv(|s|, limit);
    FirstPagesArePrefix(s, limit, n);
    assert s[..|s|] == s;
    forall p: nat | 1 <= p <= n
      ensures PageNo(s, p, limit) != []
    {
      MulMonotone(p - 1, n - 1, limit);
    }
    forall p: nat | p > n
      ensures PageNo(s, p, limit) == []
    {
      MulMonotone(n, p - 1, limit);
    }
  }

  lemma MulMonotone(a: nat, b: nat, k: nat)
    requires a <= b
    ensures a * k <= b * k
  {
  }
}

=== FILE: documents.dfy ===
/** A document collection of the store: documents with an `_id`, equality
    queries, and the single-document operations the handlers call. The unique
    index on `_id` is part of the model: an insert with an `_id` already in use
    is rejected, and so is a `$set` that would change a document's `_id`. */
module Documents {
  import opened Values
  import opened Collection

  type Store = seq<Doc>

  const ID: string := "_id"

  /** What a handler leaves behind: the response it sent and the collection. */
  datatype Handled = Handled(response: Response, store: Store)

  /** An equality query: every field of the filter is present in `d` with the same value. */
  predicate Matches(filter: Doc, d: Doc) {
    forall k :: k in filter ==> k in d && d[k] == filter[k]
  }

  /** `{ _id: new ObjectId(id) }`. */
  function IdFilter(id: string): Doc {
    map[ID := ObjectId(id)]
  }

  predicate HasId(d: Doc, id: string) {
    ID in d && d[ID] == ObjectId(id)
  }

  /** Some document already has this `_id`. */
  predicate IdTaken(store: Store, id: string) {
    exists i :: 0 <= i < |store| && HasId(store[i], id)
  }

  /** Every document carries an `_id` and no two documents share one. */
  predicate WellFormed(s: Store) {
    && (forall i :: 0 <= i < |s| ==> ID in s[i])
    && (forall i, j :: 0 <= i < j < |s| ==> s[i][ID] != s[j][ID])
  }

  /** `i` is the first document matching `filter`: the one a single-document
      operation acts on. */
  predicate FirstMatching(s: Store, filter: Doc, i: int) {
    && 0 <= i < |s|
    && Matches(filter, s[i])
    && forall j :: 0 <= j < i ==> !Matches(filter, s[j])
  }

  /** `i` is the first document holding `_id` `id`. */
  predicate FirstWithId(s: Store, id: string, i: int) {
    && 0 <= i < |s|
    && HasId(s[i], id)
    && forall j :: 0 <= j < i ==> !HasId(s[j], id)
  }

  /** `find(filter).toArray()`. */
  function Find(s: Store, filter: Doc): (r: seq<Doc>)
    ensures forall i :: 0 <= i < |r| ==> Matches(filter, r[i]) && r[i] in s
    ensures forall j :: 0 <= j < |s| && Matches(filter, s[j]) ==> s[j] in r
  {
    Filter(s, d => Matches(filter, d))
  }

  /** `find` keeps the collection's natural order and holds each match once:
      a document added at the end comes last in the result exactly when it
      matches, and an empty collection finds nothing. */
  lemma FindAppend(s: Store, d: Doc, filter: Doc)
    ensures Find([], filter) == []
    ensures Find(s + [d], filter) == Find(s, filter) + (if Matches(filter, d) then [d] else [])
  {
    FilterAppend(s, d, x => Matches(filter, x));
  }

  /** `findOne(filter)`: the first matching document, if any. */
  function FindOne(s: Store, filter: Doc): (r: Option<Doc>)
    ensures r.None? <==> forall j :: 0 <= j < |s| ==> !Matches(filter, s[j])
    ensures r.Some? ==> exists i :: 0 <= i < |s| && s[i] == r.value && Matches(filter, r.value)
                                  && forall j :: 0 <= j < i ==> !Matches(filter, s[j])
  {
    match FirstMatch(s, d => Matches(filter, d))
    case None => None
    case Some(i) => Some(s[i])
  }

  /** The document `insertOne` stores for `d` when the store assigns it `id`. */
  function WithId(d: Doc, id: string): Doc {
    Serialize(d)[ID := ObjectId(id)]
  }

  /** `insertOne(d)` with the store-generated `id`; `None` when the unique
      index rejects it. */
  function InsertOne(s: Store, id: string, d: Doc): (r: Option<Store>)
    ensures r.None? <==> exists i :: 0 <= i < |s| && HasId(s[i], id)
    ensures r.Some? ==> r.value == s + [WithId(d, id)]
  {
    match FirstMatch(s, x => HasId(x, id))
    case Some(_) => None
    case None => Some(s + [WithId(d, id)])
  }

  /** `$set: upd` applied to one document. */
  function SetFields(d: Doc, upd: Doc): (r: Doc)
    ensures r.Keys == d.Keys + upd.Keys
    ensures forall k :: k in upd ==> r[k] == Stored(upd[k])
    ensures forall k :: k in d && k !in upd ==> r[k] == d[k]
  {
    d + Serialize(upd)
  }

  /** A `$set` leaves `_id` as it is (the store rejects any other). */
  predicate KeepsId(d: Doc, upd: Doc) {
    ID !in upd || (ID in d && Stored(upd[ID]) == d[ID])
  }

  /** The result of `updateOne`: the collection, `matchedCount` and `modifiedCount`. */
  datatype UpdateResult = UpdateResult(store: Store, matched: nat, modified: nat)

  /** `updateOne(filter, { $set: upd })`; `None` when the store rejects the
      update because it would change the matched document's `_id`. */
  function UpdateOne(s: Store, filter: Doc, upd: Doc): (r: Option<UpdateResult>)
    ensures r.None? <==> exists i :: FirstMatching(s, filter, i) && !KeepsId(s[i], upd)
    ensures r.Some? ==> |r.value.store| == |s| && r.value.matched <= 1
    ensures r.Some? ==> (r.value.matched == 0 <==> forall j :: 0 <= j < |s| ==> !Matches(filter, s[j]))
    ensures r.Some? && r.value.matched == 0 ==> r.value.store == s && r.value.modified == 0
    ensures r.Some? && r.value.matched == 1 ==>
              exists i :: FirstMatching(s, filter, i) && KeepsId(s[i], upd)
                          && r.value.store == s[i := SetFields(s[i], upd)]
                          && r.value.modified == (if SetFields(s[i], upd) == s[i] then 0 else 1)
    ensures r.Some? ==> (r.value.modified == 1 <==> r.value.store != s)
    ensures r.Some? ==> r.value.modified <= r.value.matched
  {
    match FirstMatch(s, d => Matches(filter, d))
    case None => Some(UpdateResult(s, 0, 0))
    case Some(i) =>
      assert FirstMatching(s, filter, i);
      assert forall k :: FirstMatching(s, filter, k) ==> k == i;
      if !KeepsId(s[i], upd) then None
      else
        var d' := SetFields(s[i], upd);
        assert s[i := d'][i] == d';
        Some(UpdateResult(s[i := d'], 1, if d' == s[i] then 0 else 1))
  }

  /** `deleteOne(filter)`: the collection afterwards and `deletedCount`. */
  function DeleteOne(s: Store, filter: Doc): (r: (Store, nat))
    ensures r.1 <= 1
    ensures r.1 == 0 <==> forall j :: 0 <= j < |s| ==> !Matches(filter, s[j])
    ensures r.1 == 0 ==> r.0 == s
    ensures r.1 == 1 ==> exists i :: 0 <= i < |s| && Matches(filter, s[i])
                                     && (forall j :: 0 <= j < i ==> !Matches(filter, s[j]))
                                     && r.0 == RemoveAt(s, i)
  {
    DeleteFirst(s, d => Matches(filter, d))
  }

  lemma IdFilterMatches(id: string, d: Doc)
    ensures Matches(IdFilter(id), d) <==> HasId(d, id)
  {
    if HasId(d, id) {
      assert Matches(IdFilter(id), d);
    }
  }

  /** The first match of `{ _id }` is the first document holding the `_id`. */
  lemma FirstMatchingId(s: Store, id: string, i: int)
    ensures FirstMatching(s, IdFilter(id), i) <==> FirstWithId(s, id, i)
  {
    forall j | 0 <= j < |s| ensures Matches(IdFilter(id), s[j]) <==> HasId(s[j], id) {
      IdFilterMatches(id, s[j]);
    }
  }

  /** What `updateOne({ _id }, { $set: upd })` does, told by the first
      document holding the `_id`: the store refuses the update exactly when
      it would change that document's `_id`, nothing matches exactly when
      no document holds it, and otherwise that document gets the `$set`. */
  lemma UpdateById(s: Store, id: string, upd: Doc)
    ensures var r := UpdateOne(s, IdFilter(id), upd);
            && (r.None? <==> exists i :: FirstWithId(s, id, i) && !KeepsId(s[i], upd))
            && (r.Some? && r.value.matched == 0 <==> !IdTaken(s, id))
            && (r.Some? && r.value.matched == 1 <==> exists i :: FirstWithId(s, id, i) && KeepsId(s[i], upd))
            && (r.Some? && r.value.matched == 1 ==>
                  exists i :: FirstWithId(s, id, i) && KeepsId(s[i], upd) && r.value.store == s[i := SetFields(s[i], upd)])
  {
    forall j | 0 <= j < |s| ensures Matches(IdFilter(id), s[j]) <==> HasId(s[j], id) {
      IdFilterMatches(id, s[j]);
    }
    match FirstMatch(s, d => Matches(IdFilter(id), d))
    case None =>
    case Some(i) =>
      assert FirstWithId(s, id, i);
      forall k | FirstWithId(s, id, k) ensures k == i {
      }
  }

  /** `v` is a document holding every field of `upd` in its stored form. */
  ghost predicate Shows(v: Value, upd: Doc) {
    v.Obj? && forall k :: k in upd ==> k in v.fields && v.fields[k] == Stored(upd[k])
  }

  /** After a `$set` the document shows every field of the update. */
  lemma SetFieldsShows(d: Doc, upd: Doc)
    ensures Shows(Obj(SetFields(d, upd)), upd)
  {
  }

  /** A `$set` that leaves `_id` as it is, applied to the document holding
      `id`, keeps the store well formed, and that document is still the only
      one holding `id`. */
  lemma SetFieldsKeepsId(s: Store, i: nat, id: string, upd: Doc)
    requires WellFormed(s) && i < |s| && HasId(s[i], id) && KeepsId(s[i], upd)
    ensures var s' := s[i := SetFields(s[i], upd)];
            && WellFormed(s')
            && HasId(s'[i], id)
            && forall j :: 0 <= j < |s'| && HasId(s'[j], id) ==> j == i
  {
    SetKeepsWellFormed(s, i, upd);
  }

  /** Inserting keeps every `_id` present and distinct. */
  lemma InsertKeepsWellFormed(s: Store, id: string, d: Doc)
    requires WellFormed(s)
    requires InsertOne(s, id, d).Some?
    ensures WellFormed(InsertOne(s, id, d).value)
  {
    var s' := InsertOne(s, id, d).value;
    forall i, j | 0 <= i < j < |s'|
      ensures s'[i][ID] != s'[j][ID]
    {
      if j == |s| {
        assert !HasId(s[i], id);
      }
    }
  }

  /** An accepted update keeps every `_id` present and distinct. */
  lemma UpdateKeepsWellFormed(s: Store, filter: Doc, upd: Doc)
    requires WellFormed(s)
    requires UpdateOne(s, filter, upd).Some?
    ensures WellFormed(UpdateOne(s, filter, upd).value.store)
  {
    var r := UpdateOne(s, filter, upd).value;
    if r.matched == 1 {
      var i :| 0 <= i < |s| && KeepsId(s[i], upd) && r.store == s[i := SetFields(s[i], upd)];
      SetKeepsWellFormed(s, i, upd);
    }
  }

  /** A `$set` that leaves `_id` as it is keeps every `_id` present and distinct. */
  lemma SetKeepsWellFormed(s: Store, i: nat, upd: Doc)
    requires WellFormed(s) && i < |s| && KeepsId(s[i], upd)
    ensures WellFormed(s[i := SetFields(s[i], upd)])
    ensures forall j :: 0 <= j < |s| ==> s[i := SetFields(s[i], upd)][j][ID] == s[j][ID]
  {
    assert SetFields(s[i], upd)[ID] == s[i][ID];
  }

  /** Removing one document keeps every `_id` present and distinct. */
  lemma RemoveAtKeepsWellFormed(s: Store, i: nat)
    requires WellFormed(s)
    requires i < |s|
    ensures WellFormed(RemoveAt(s, i))
  {
    var r := RemoveAt(s, i);
    forall a | 0 <= a < |r|
      ensures r[a] == s[if a < i then a else a + 1]
    {
    }
  }

  /** Deleting keeps every `_id` present and distinct. */
  lemma DeleteKeepsWellFormed(s: Store, filter: Doc)
    requires WellFormed(s)
    ensures WellFormed(DeleteOne(s, filter).0)
  {
    var r := DeleteOne(s, filter);
    if r.1 == 1 {
      var i :| 0 <= i < |s| && r.0 == RemoveAt(s, i);
      RemoveAtKeepsWellFormed(s, i);
    }
  }

  /** In a well-formed collection at most one document has a given `_id`,
      so removing it leaves none with that `_id`. */
  lemma RemoveAtDropsId(s: Store, i: nat, id: string)
    requires WellFormed(s)
    requires i < |s| && HasId(s[i], id)
    ensures forall j :: 0 <= j < |RemoveAt(s, i)| ==> !HasId(RemoveAt(s, i)[j], id)
  {
    var t := RemoveAt(s, i);
    forall j | 0 <= j < |t| ensures !HasId(t[j], id) {
      var j' := if j < i then j else j + 1;
      assert t[j] == s[j'] && j' != i;
    }
  }

  /** Deleting by `_id` leaves no document with that `_id`. */
  lemma DeleteByIdRemovesIt(s: Store, id: string)
    requires WellFormed(s)
    ensures forall j :: 0 <= j < |DeleteOne(s, IdFilter(id)).0| ==> !HasId(DeleteOne(s, IdFilter(id)).0[j], id)
  {
    var r := DeleteOne(s, IdFilter(id));
    if r.1 == 0 {
      forall j | 0 <= j < |s| ensures !HasId(s[j], id) {
        IdFilterMatches(id, s[j]);
      }
    } else {
      var i :| 0 <= i < |s| && Matches(IdFilter(id), s[i]) && r.0 == RemoveAt(s, i);
      IdFilterMatches(id, s[i]);
      RemoveAtDropsId(s, i, id);
    }
  }

  /** After an accepted insert, looking the new `_id` up finds exactly the inserted document. */
  lemma FindInserted(s: Store, id: string, d: Doc)
    requires WellFormed(s)
    requires InsertOne(s, id, d).Some?
    ensures FindOne(InsertOne(s, id, d).value, IdFilter(id)) == Some(WithId(d, id))
  {
    var s' := InsertOne(s, id, d).value;
    forall j | 0 <= j < |s| ensures !Matches(IdFilter(id), s'[j]) {
      IdFilterMatches(id, s'[j]);
    }
    IdFilterMatches(id, s'[|s|]);
  }

  /** `find({})` returns the whole collection, in order. */
  lemma {:induction false} FindAll(store: Store)
    ensures Find(store, map[]) == store
    decreases |store|
  {
    if |store| > 0 {
      FindAll(store[1..]);
      assert Matches(map[], store[0]);
      assert Find(store, map[]) == [store[0]] + Find(store[1..], map[]);
      assert store == [store[0]] + store[1..];
    }
  }
}

=== FILE: donations.dfy ===
/** The blood-donation request routes: create with required-field
    validation and a default status, fetch one by id, list with a field
    filter and cursor pagination, update with a `$set` document, delete, and
    list by page number with page metadata. Each handler is a function of the
    request's inputs and the collection; `fails` is the store throwing, which
    the handlers answer with 500. */
module Donations {
  import opened Values
  import opened Collection
  import opened Documents

  /** The fields a new request must carry with truthy values. */
  const REQUIRED: seq<string> := [
    "requesterName", "requesterEmail", "recipientName", "recipientDistrict",
    "hospitalName", "bloodGroup", "donationDate", "donationTime", "requestMessage"]

  /** The fields copied into a new request document as they arrive. */
  const COPIED: seq<string> := [
    "requesterName", "requesterEmail", "recipientName", "recipientDistrict", "recipientUpazila",
    "hospitalName", "fullAddress", "bloodGroup", "donationTime", "requestMessage"]

  /** The status values `/getPaginatedDonation` filters on. */
  const STATUSES: seq<string> := ["pending", "inprogress", "done", "canceled"]

  const STATUS := "donationStatus"

  /** The page size both listings use when the query gives none. */
  const DEFAULT_LIMIT: nat := 10

  predicate HasRequiredFields(body: Doc) {
    forall k :: k in REQUIRED ==> Truthy(Field(body, k))
  }

  /** The document `/createDonation` inserts. `toDate` is `new Date(…)`. */
  function DonationDoc(body: Doc, toDate: Value -> Value, now: int): Doc {
    map[
      "donationDate" := toDate(Field(body, "donationDate")),
      STATUS := Or(Field(body, STATUS), Str("pending")),
      "createdAt" := Date(now)]
    + map k | k in COPIED :: Field(body, k)
  }

  /** `d` is the stored form of the request `/createDonation` builds from
      `body`: the copied fields (null where absent), the parsed date, the
      status or "pending", the creation time and the `_id`, and nothing else. */
  ghost predicate IsNewDonation(d: Doc, body: Doc, toDate: Value -> Value, now: int, id: string) {
    && HasId(d, id)
    && (forall k :: k in COPIED ==> k in d && d[k] == Stored(Field(body, k)))
    && "donationDate" in d && d["donationDate"] == Stored(toDate(Field(body, "donationDate")))
    && STATUS in d && d[STATUS] == Or(Field(body, STATUS), Str("pending"))
    && "createdAt" in d && d["createdAt"] == Date(now)
    && (forall k :: k in d ==> k in COPIED || k == "donationDate" || k == STATUS || k == "createdAt" || k == ID)
  }

  lemma StoredDonation(body: Doc, toDate: Value -> Value, now: int, id: string)
    ensures IsNewDonation(WithId(DonationDoc(body, toDate, now), id), body, toDate, now, id)
  {
    DonationDocKeys(body, toDate, now);
    DonationDocValues(body, toDate, now);
  }

  /** The fields the handler sets itself are not among the copied ones. */
  lemma FixedFieldsNotCopied()
    ensures "donationDate" !in COPIED && STATUS !in COPIED && "createdAt" !in COPIED && ID !in COPIED
  {
  }

  /** The keys of the request document before the store adds its `_id`. */
  lemma DonationDocKeys(body: Doc, toDate: Value -> Value, now: int)
    ensures forall k :: k in DonationDoc(body, toDate, now) <==>
                        k in COPIED || k == "donationDate" || k == STATUS || k == "createdAt"
    ensures ID !in DonationDoc(body, toDate, now)
  {
    FixedFieldsNotCopied();
  }

  /** The values of the request document before the store adds its `_id`. */
  lemma DonationDocValues(body: Doc, toDate: Value -> Value, now: int)
    ensures var doc := DonationDoc(body, toDate, now);
            && (forall k :: k in COPIED ==> k in doc && doc[k] == Field(body, k))
            && "donationDate" in doc && doc["donationDate"] == toDate(Field(body, "donationDate"))
            && STATUS in doc && doc[STATUS] == Or(Field(body, STATUS), Str("pending"))
            && "createdAt" in doc && doc["createdAt"] == Date(now)
  {
    FixedFieldsNotCopied();
  }

  /** `POST /createDonation`; `newId` is the `_id` the store generates. */
  function CreateDonation(body: Doc, newId: string, now: int, toDate: Value -> Value,
                          fails: bool, store: Store): (r: Handled)
    ensures !HasRequiredFields(body) ==>
              r == Handled(Response(400, Message("message", "Missing required fields in the donation request.")), store)
    ensures HasRequiredFields(body) && (fails || IdTaken(store, newId)) ==>
              r == Handled(Response(500, Message("message", "Failed to create donation request.")), store)
    ensures r.response.status == 201 <==> HasRequiredFields(body) && !fails && !IdTaken(store, newId)
    ensures r.response.status != 201 ==> r.store == store
    ensures r.response.status == 201 ==>
              && r.response.body == Obj(map["donationId" := ObjectId(newId)])
              && |r.store| == |store| + 1
              && r.store[..|store|] == store
              && IsNewDonation(r.store[|store|], body, toDate, now, newId)
  {
    if !HasRequiredFields(body) then
      Handled(Response(400, Message("message", "Missing required fields in the donation request.")), store)
    else if fails then
      Handled(Response(500, Message("message", "Failed to create donation request.")), store)
    else
      match InsertOne(store, newId, DonationDoc(body, toDate, now))
      case None => Handled(Response(500, Message("message", "Failed to create donation request.")), store)
      case Some(s') =>
        InsertedDonation(body, newId, now, toDate, store);
        Handled(Response(201, Obj(map["donationId" := ObjectId(newId)])), s')
  }

  /** An accepted insert appends the new request and keeps the rest. */
  lemma InsertedDonation(body: Doc, newId: string, now: int, toDate: Value -> Value, store: Store)
    requires !IdTaken(store, newId)
    ensures var s' := InsertOne(store, newId, DonationDoc(body, toDate, now)).value;
            && |s'| == |store| + 1 && s'[..|store|] == store
            && IsNewDonation(s'[|store|], body, toDate, now, newId)
  {
    var s' := InsertOne(store, newId, DonationDoc(body, toDate, now)).value;
    assert s'[..|store|] == store;
    StoredDonation(body, toDate, now, newId);
  }

  /** `GET /getDonationRequestById`; `isValid` is `ObjectId.isValid`. */
  function GetDonationRequestById(id: Option<string>, isValid: string -> bool, fails: bool, store: Store): (r: Handled)
    ensures r.store == store
    ensures id.None? || !isValid(id.value) ==> r.response == Response(400, Message("message", "Invalid ID format."))
    ensures id.Some? && isValid(id.value) && fails ==>
              r.response == Response(500, Message("message", "Failed to fetch donation request."))
    ensures id.Some? && isValid(id.value) && !fails && !IdTaken(store, id.value) ==>
              r.response == Response(404, Message("message", "Donation request not found."))
    ensures r.response.status == 200 <==> id.Some? && isValid(id.value) && !fails && IdTaken(store, id.value)
    ensures r.response.status == 200 ==>
              exists i :: FirstWithId(store, id.value, i) && r.response.body == Obj(store[i])
  {
    if id.None? || !isValid(id.value) then
      Handled(Response(400, Message("message", "Invalid ID format.")), store)
    else if fails then
      Handled(Response(500, Message("message", "Failed to fetch donation request.")), store)
    else
      match FindOne(store, IdFilter(id.value))
      case None =>
        assert !IdTaken(store, id.value) by {
          forall j | 0 <= j < |store| ensures !HasId(store[j], id.value) {
            IdFilterMatches(id.value, store[j]);
          }
        }
        Handled(Response(404, Message("message", "Donation request not found.")), store)
      case Some(d) =>
        var i :| 0 <= i < |store| && store[i] == d && Matches(IdFilter(id.value), d)
                 && forall j :: 0 <= j < i ==> !Matches(IdFilter(id.value), store[j]);
        FirstMatchingId(store, id.value, i);
        Handled(Response(200, Obj(d)), store)
  }

  /** A query parameter is present and non-empty (truthy). */
  predicate QueryHas(query: map<string, string>, key: string) {
    key in query && query[key] != ""
  }

  /** The filter `/getDonationRequests` builds from its query: each truthy
      parameter among `requesterEmail`, `recipientDistrict`, `bloodGroup`
      and `status`, the last one filtering `donationStatus`. */
  function QueryFilter(query: map<string, string>): (filter: Doc)
    ensures filter.Keys <= {"requesterEmail", "recipientDistrict", "bloodGroup", STATUS}
    ensures "requesterEmail" in filter <==> QueryHas(query, "requesterEmail")
    ensures "recipientDistrict" in filter <==> QueryHas(query, "recipientDistrict")
    ensures "bloodGroup" in filter <==> QueryHas(query, "bloodGroup")
    ensures STATUS in filter <==> QueryHas(query, "status")
    ensures "requesterEmail" in filter ==> filter["requesterEmail"] == Str(query["requesterEmail"])
    ensures "recipientDistrict" in filter ==> filter["recipientDistrict"] == Str(query["recipientDistrict"])
    ensures "bloodGroup" in filter ==> filter["bloodGroup"] == Str(query["bloodGroup"])
    ensures STATUS in filter ==> filter[STATUS] == Str(query["status"])
  {
    var f0: Doc := map[];
    var f1 := if QueryHas(query, "requesterEmail") then f0["requesterEmail" := Str(query["requesterEmail"])] else f0;
    var f2 := if QueryHas(query, "recipientDistrict") then f1["recipientDistrict" := Str(query["recipientDistrict"])] else f1;
    var f3 := if QueryHas(query, "bloodGroup") then f2["bloodGroup" := Str(query["bloodGroup"])] else f2;
    if QueryHas(query, "status") then f3[STATUS := Str(query["status"])] else f3
  }

  /** `GET /getDonationRequests`, with `limit` and `cursor` already parsed
      and `None` where the query leaves them out. */
  function GetDonationRequests(query: map<string, string>, limit: Option<nat>, cursor: Option<nat>,
                               fails: bool, store: Store): (r: Handled)
    ensures r.store == store
    ensures fails ==> r.response == Response(500, Message("message", "Failed to fetch donation requests."))
    ensures !fails ==>
              var p := CursorStep(Find(store, QueryFilter(query)), OrDefault(limit, DEFAULT_LIMIT), OrDefault(cursor, 0));
              r.response == Response(200, Obj(map[
                "donations" := Docs(p.items),
                "nextCursor" := if p.nextCursor.Some? then Num(p.nextCursor.value) else Null]))
  {
    if fails then Handled(Response(500, Message("message", "Failed to fetch donation requests.")), store)
    else
      var p := CursorStep(Find(store, QueryFilter(query)), OrDefault(limit, DEFAULT_LIMIT), OrDefault(cursor, 0));
      Handled(Response(200, Obj(map[
        "donations" := Docs(p.items),
        "nextCursor" := match p.nextCursor case Some(n) => Num(n) case None => Null])), store)
  }

  /** The `$set` document of `/updateDonationRequest`: every body field,
      with `donationStatus` only when truthy. */
  function UpdateDocOf(body: Doc): (upd: Doc)
    ensures STATUS in upd <==> Truthy(Field(body, STATUS))
    ensures forall k :: k in upd ==> k in body && upd[k] == body[k]
    ensures forall k :: k in body && k != STATUS ==> k in upd
    ensures |upd| == 0 <==> body.Keys <= {STATUS} && !Truthy(Field(body, STATUS))
  {
    var rest := map k | k in body && k != STATUS :: body[k];
    var upd := if Truthy(Field(body, STATUS)) then rest[STATUS := body[STATUS]] else rest;
    assert (exists k :: k in body && k != STATUS) ==> |upd| > 0 by {
      if exists k :: k in body && k != STATUS {
        var k :| k in body && k != STATUS;
        assert k in upd;
      }
    }
    assert |upd| != 0 ==> exists k :: k in upd;
    upd
  }

  /** `PATCH /updateDonationRequest/:id`. */
  function UpdateDonationRequest(id: string, body: Doc, isValid: string -> bool, fails: bool, store: Store): (r: Handled)
    ensures |UpdateDocOf(body)| == 0 ==>
              r == Handled(Response(400, Message("message", "No fields provided for update.")), store)
    ensures |UpdateDocOf(body)| > 0 && (!isValid(id) || fails) ==>
              r == Handled(Response(500, Message("message", "Failed to update donation request.")), store)
    ensures |UpdateDocOf(body)| > 0 && isValid(id) && !fails && !IdTaken(store, id) ==>
              r == Handled(Response(404, Message("message", "Donation request not found.")), store)
    ensures |UpdateDocOf(body)| > 0 && isValid(id) && !fails
            && (exists i :: FirstWithId(store, id, i) && !KeepsId(store[i], UpdateDocOf(body))) ==>
              r == Handled(Response(500, Message("message", "Failed to update donation request.")), store)
    ensures r.response.status == 200 <==>
              && |UpdateDocOf(body)| > 0 && isValid(id) && !fails
              && exists i :: FirstWithId(store, id, i) && KeepsId(store[i], UpdateDocOf(body))
    ensures r.response.status == 200 ==>
              && r.response.body == Message("message", "Donation request updated successfully.")
              && exists i :: FirstWithId(store, id, i) && KeepsId(store[i], UpdateDocOf(body))
                             && r.store == store[i := SetFields(store[i], UpdateDocOf(body))]
    ensures r.response.status != 200 ==> r.store == store
  {
    var updateDoc := UpdateDocOf(body);
    if |updateDoc| == 0 then
      Handled(Response(400, Message("message", "No fields provided for update.")), store)
    else if !isValid(id) || fails then
      Handled(Response(500, Message("message", "Failed to update donation request.")), store)
    else
      UpdateById(store, id, updateDoc);
      match UpdateOne(store, IdFilter(id), updateDoc)
      case None => Handled(Response(500, Message("message", "Failed to update donation request.")), store)
      case Some(u) =>
        if u.matched == 0 then
          Handled(Response(404, Message("message", "Donation request not found.")), store)
        else
          Handled(Response(200, Message("message", "Donation request updated successfully.")), u.store)
  }

  /** `DELETE /deleteDonation/:id`. */
  function DeleteDonation(id: string, isValid: string -> bool, fails: bool, store: Store): (r: Handled)
    ensures id == "" ==> r == Handled(Response(400, Message("message", "Donation ID is required.")), store)
    ensures id != "" && (!isValid(id) || fails) ==>
              r == Handled(Response(500, Message("message", "Failed to delete donation.")), store)
    ensures id != "" && isValid(id) && !fails && !IdTaken(store, id) ==>
              r == Handled(Response(404, Message("message", "Donation not found or already deleted.")), store)
    ensures r.response.status == 200 <==> id != "" && isValid(id) && !fails && IdTaken(store, id)
    ensures r.response.status == 200 ==>
              && r.response.body == Message("message", "Donation deleted successfully.")
              && exists i :: FirstWithId(store, id, i) && r.store == RemoveAt(store, i)
    ensures r.response.status != 200 ==> r.store == store
  {
    if id == "" then Handled(Response(400, Message("message", "Donation ID is required.")), store)
    else if !isValid(id) || fails then Handled(Response(500, Message("message", "Failed to delete donation.")), store)
    else
      var (s', deleted) := DeleteOne(store, IdFilter(id));
      if deleted == 0 then
        assert !IdTaken(store, id) by {
          forall j | 0 <= j < |store| ensures !HasId(store[j], id) {
            IdFilterMatches(id, store[j]);
          }
        }
        Handled(Response(404, Message("message", "Donation not found or already deleted.")), store)
      else
        var i :| 0 <= i < |store| && Matches(IdFilter(id), store[i])
                 && (forall j :: 0 <= j < i ==> !Matches(IdFilter(id), store[j])) && s' == RemoveAt(store, i);
        forall j | 0 <= j <= i ensures Matches(IdFilter(id), store[j]) <==> HasId(store[j], id) {
          IdFilterMatches(id, store[j]);
        }
        Handled(Response(200, Message("message", "Donation deleted successfully.")), s')
  }

  /** The filter of `/getPaginatedDonation`: on `donationStatus` only for
      one of the four known statuses, otherwise none. */
  function StatusFilter(status: Option<string>): (filter: Doc)
    ensures status.Some? && status.value in STATUSES ==> filter == map[STATUS := Str(status.value)]
    ensures !(status.Some? && status.value in STATUSES) ==> filter == map[]
  {
    if status.Some? && status.value != "" && status.value in STATUSES then map[STATUS := Str(status.value)] else map[]
  }

  /** The listing `/getPaginatedDonation` reports. `totalPages` is `None`
      where `Math.ceil(total / 0)` is not a finite number, which JSON sends
      as null. */
  datatype PagedListing = PagedListing(
    donations: seq<Doc>,
    totalDonations: nat,
    totalPages: Option<nat>,
    currentPage: int,
    donationsPerPage: nat)

  /** Page `page` of the donations with the given status, `limit` per page;
      a limit of 0 lists them all on every page. */
  function PagedDonations(page: int, limit: nat, status: Option<string>, store: Store): (l: PagedListing)
    requires limit == 0 || page >= 1
    ensures var all := Find(store, StatusFilter(status));
            && l.totalDonations == |all|
            && l.currentPage == page && l.donationsPerPage == limit
            && (limit == 0 ==> l.donations == all && l.totalPages.None?)
            && (limit > 0 ==>
                  && l.totalPages.Some?
                  && l.totalPages.value * limit >= |all|
                  && (l.totalPages.value > 0 ==> (l.totalPages.value - 1) * limit < |all|)
                  && l.donations == PageNo(all, page, limit)
                  && |l.donations| <= limit)
  {
    var all := Find(store, StatusFilter(status));
    if limit == 0 then PagedListing(all, |all|, None, page, 0)
    else PagedListing(Page(all, (page - 1) * limit, limit), |all|, Some(CeilDiv(|all|, limit)), page, limit)
  }

  /** Pages 1 to `totalPages` together list every donation with the status,
      once each and in order, and every one of them is non-empty. */
  lemma PagedListingCoversAll(limit: nat, status: Option<string>, store: Store)
    requires limit > 0
    ensures var all := Find(store, StatusFilter(status));
            var n := PagedDonations(1, limit, status, store).totalPages.value;
            && FirstPages(all, limit, n) == all
            && (forall p: nat :: 1 <= p <= n ==> PagedDonations(p, limit, status, store).donations != [])
            && (forall p: nat :: p > n ==> PagedDonations(p, limit, status, store).donations == [])
  {
    PagesCoverAll(Find(store, StatusFilter(status)), limit);
  }

  /** The body of a page listing. */
  function PagedBody(l: PagedListing): Value {
    Obj(map[
      "donations" := Docs(l.donations),
      "totalDonations" := Num(l.totalDonations),
      "totalPages" := match l.totalPages case Some(n) => Num(n) case None => Null,
      "currentPage" := Num(l.currentPage),
      "donationsPerPage" := Num(l.donationsPerPage)])
  }

  lemma SkipSign(page: int, limit: nat)
    ensures (page - 1) * limit < 0 <==> limit > 0 && page < 1
  {
    if page < 1 && limit > 0 {
      assert (page - 1) * limit <= (page - 1) * 1;
    }
  }

  /** `GET /getPaginatedDonation` with `page` and `limit` already parsed,
      `None` where the query leaves them out. Below page 1 a positive limit
      makes the skip `(page - 1) * limit` negative, which the store refuses. */
  function GetPaginatedDonation(page: Option<int>, limit: Option<nat>, status: Option<string>,
                                fails: bool, store: Store): (r: Handled)
    ensures r.store == store
    ensures var p := OrDefault(page, 1);
            var l := OrDefault(limit, DEFAULT_LIMIT);
            && ((l > 0 && p < 1) || fails ==>
                  r.response == Response(500, Message("message", "Failed to fetch donation requests.")))
            && ((l == 0 || p >= 1) && !fails ==>
                  r.response == Response(200, PagedBody(PagedDonations(p, l, status, store))))
  {
    var p := OrDefault(page, 1);
    var l := OrDefault(limit, DEFAULT_LIMIT);
    var skip := (p - 1) * l;
    SkipSign(p, l);
    if skip < 0 || fails then
      Handled(Response(500, Message("message", "Failed to fetch donation requests.")), store)
    else
      Handled(Response(200, PagedBody(PagedDonations(p, l, status, store))), store)
  }

  /** With no `page` and no `limit` in the query, the listing is the first
      ten donations with the status, and reports page 1 of size 10. */
  lemma DefaultPage(status: Option<string>, store: Store)
    ensures var r := GetPaginatedDonation(None, None, status, false, store).response;
            var all := Find(store, StatusFilter(status));
            && r.status == 200
            && r.body == PagedBody(PagedListing(all[..Min(10, |all|)], |all|, Some(CeilDiv(|all|, 10)), 1, 10))
  {
    var all := Find(store, StatusFilter(status));
    assert Page(all, 0, 10) == all[..Min(10, |all|)];
  }

  /** A created request can be fetched back by its new id, carrying the
      requested status or "pending". */
  lemma CreateThenGetById(body: Doc, newId: string, now: int, toDate: Value -> Value,
                          store: Store, isValid: string -> bool)
    requires WellFormed(store)
    requires isValid(newId)
    requires HasRequiredFields(body) && !IdTaken(store, newId)
    ensures var s' := CreateDonation(body, newId, now, toDate, false, store).store;
            && WellFormed(s')
            && GetDonationRequestById(Some(newId), isValid, false, s').response
               == Response(200, Obj(s'[|store|]))
            && s'[|store|][STATUS] == Or(Field(body, STATUS), Str("pending"))
  {
    var d := DonationDoc(body, toDate, now);
    InsertKeepsWellFormed(store, newId, d);
    FindInserted(store, newId, d);
  }

  /** Once a request is deleted, it can be neither fetched nor deleted again. */
  lemma DeleteThenGone(id: string, isValid: string -> bool, store: Store)
    requires WellFormed(store)
    requires id != "" && isValid(id) && IdTaken(store, id)
    ensures var s' := DeleteDonation(id, isValid, false, store).store;
            && WellFormed(s')
            && GetDonationRequestById(Some(id), isValid, false, s').response.status == 404
            && DeleteDonation(id, isValid, false, s').response.status == 404
  {
    DeleteKeepsWellFormed(store, IdFilter(id));
    DeleteByIdRemovesIt(store, id);
  }

  /** After an update of a present request that leaves its `_id` as it is,
      the request reads back with the `$set` fields applied. */
  lemma UpdateThenGet(id: string, body: Doc, isValid: string -> bool, store: Store, i: nat)
    requires WellFormed(store)
    requires |UpdateDocOf(body)| > 0 && isValid(id)
    requires i < |store| && HasId(store[i], id) && KeepsId(store[i], UpdateDocOf(body))
    ensures var s' := UpdateDonationRequest(id, body, isValid, false, store).store;
            var got := GetDonationRequestById(Some(id), isValid, false, s').response;
            && WellFormed(s')
            && got.status == 200
            && Shows(got.body, UpdateDocOf(body))
  {
    var s' := UpdateDonationRequest(id, body, isValid, false, store).store;
    UpdatedById(id, body, isValid, store, i);
    GetByUniqueId(id, isValid, s', i);
  }

  /** The request an update of a present `_id` changes: the one holding it,
      now with the update's fields, and still the only one holding it. */
  lemma UpdatedById(id: string, body: Doc, isValid: string -> bool, store: Store, i: nat)
    requires WellFormed(store)
    requires |UpdateDocOf(body)| > 0 && isValid(id)
    requires i < |store| && HasId(store[i], id) && KeepsId(store[i], UpdateDocOf(body))
    ensures var s' := UpdateDonationRequest(id, body, isValid, false, store).store;
            && WellFormed(s') && i < |s'| && HasId(s'[i], id)
            && Shows(Obj(s'[i]), UpdateDocOf(body))
            && forall j :: 0 <= j < |s'| && HasId(s'[j], id) ==> j == i
  {
    var upd := UpdateDocOf(body);
    var s' := UpdateDonationRequest(id, body, isValid, false, store).store;
    assert FirstWithId(store, id, i);
    var k :| FirstWithId(store, id, k) && KeepsId(store[k], upd) && s' == store[k := SetFields(store[k], upd)];
    assert k == i;
    SetFieldsKeepsId(store, i, id, upd);
    SetFieldsShows(store[i], upd);
    assert s'[i] == SetFields(store[i], upd);
  }

  /** Fetching by an id only one request holds returns that request. */
  lemma GetByUniqueId(id: string, isValid: string -> bool, store: Store, i: nat)
    requires isValid(id) && i < |store| && HasId(store[i], id)
    requires forall j :: 0 <= j < |store| && HasId(store[j], id) ==> j == i
    ensures GetDonationRequestById(Some(id), isValid, false, store).response == Response(200, Obj(store[i]))
  {
  }


}

=== FILE: sessions.dfy ===
/** The session routes: `/postSessions` creates a session record for the
    verified user and issues the `session` cookie, `/getSessions` looks the
    record up by that cookie, and `/delSessions` removes it and clears the
    cookie. The session collection is a sequence of records with the store's
    first-match semantics; it has no unique index, so distinct session ids
    are an invariant that holds as long as the id generator yields unused
    ids. Timestamps are milliseconds. */
module Sessions {
  import opened Values
  import opened Collection
  import Auth

  /** 24 * 60 * 60 * 1000: a session's lifetime and the cookie's max-age. */
  const DAY_MS: int := 86_400_000

  const COOKIE: string := "session"

  datatype SessionRecord = SessionRecord(
    sessionId: string,
    userId: string,
    createdAt: int,
    lastAccessedAt: int,
    expiresAt: int)

  type SessionStore = seq<SessionRecord>

  datatype CookieOptions = CookieOptions(
    httpOnly: bool,
    secure: bool,
    maxAge: int,
    sameSite: string,
    domain: string)

  /** What a handler does to the client's `session` cookie. */
  datatype CookieAction =
    | Untouched
    | SetCookie(name: string, value: string, options: CookieOptions)
    | ClearCookie(name: string)

  datatype SessionReply = SessionReply(response: Response, store: SessionStore, cookie: CookieAction)

  const INTERNAL_ERROR := Response(500, Message("error", "Internal Server Error"))

  /** The request carries a non-empty `session` cookie (`req.cookies.session` is truthy). */
  predicate HasCookie(cookie: Option<string>) {
    cookie.Some? && cookie.value != ""
  }

  /** Some record in the store has this session id. */
  predicate Known(store: SessionStore, id: string) {
    exists i :: 0 <= i < |store| && store[i].sessionId == id
  }

  /** No two records share a session id. */
  predicate UniqueIds(store: SessionStore) {
    forall i, j :: 0 <= i < j < |store| ==> store[i].sessionId != store[j].sessionId
  }

  /** The cookie the session routes issue: http-only, secure in production,
      same-site lax, living as long as the session. */
  function SessionCookieOptions(production: bool): CookieOptions {
    CookieOptions(true, production, DAY_MS, "lax", "localhost")
  }

  /** `/postSessions` after the gate: insert the record for `user` under the
      generated `sessionId`, then set the cookie. `insertFails` is the store
      rejecting the insert. */
  function CreateSession(user: Auth.Claims, sessionId: string, now: int, production: bool,
                         insertFails: bool, store: SessionStore): (r: SessionReply)
    ensures insertFails ==> r == SessionReply(INTERNAL_ERROR, store, Untouched)
    ensures !insertFails ==> |r.store| == |store| + 1 && r.store[..|store|] == store
    ensures !insertFails ==>
              var rec := r.store[|store|];
              && rec.sessionId == sessionId
              && rec.userId == user.uid
              && rec.createdAt == now
              && rec.lastAccessedAt == rec.createdAt
              && rec.expiresAt == rec.createdAt + DAY_MS
    ensures !insertFails ==> r.cookie == SetCookie(COOKIE, sessionId, SessionCookieOptions(production))
    ensures !insertFails ==>
              var rec := r.store[|store|];
              && r.cookie.SetCookie?
              && r.cookie.options.maxAge == rec.expiresAt - rec.createdAt
              && r.cookie.options.httpOnly && r.cookie.options.sameSite == "lax"
              && r.cookie.options.secure == production
    ensures !insertFails ==>
              r.response == Response(200, Obj(map["message" := Str("Session created"), "sessionId" := Str(sessionId)]))
    ensures r.cookie.SetCookie? <==> r.store != store
    ensures r.cookie.SetCookie? ==> r.cookie.value == r.store[|r.store| - 1].sessionId
  {
    var record := SessionRecord(sessionId, user.uid, now, now, now + DAY_MS);
    if insertFails then SessionReply(INTERNAL_ERROR, store, Untouched)
    else
      assert (store + [record])[..|store|] == store;
      SessionReply(Response(200, Obj(map["message" := Str("Session created"), "sessionId" := Str(sessionId)])),
                   store + [record],
                   SetCookie(COOKIE, sessionId, SessionCookieOptions(production)))
  }

  /** The whole `/postSessions` route: the bearer gate, then `CreateSession`
      for the verified user. */
  function PostSessions(authorization: Option<string>, verify: Auth.Verifier, sessionId: string, now: int,
                        production: bool, insertFails: bool, store: SessionStore): (r: SessionReply)
    ensures Auth.VerifyToken(authorization, verify).rejection.Some? ==>
              r == SessionReply(Auth.VerifyToken(authorization, verify).rejection.value, store, Untouched)
              && r.response.status == 401
    ensures r.store != store ==>
              && |r.store| == |store| + 1
              && Auth.HasBearer(authorization)
              && verify(Auth.BearerToken(authorization.value)).Some?
              && r.store[|r.store| - 1].userId == verify(Auth.BearerToken(authorization.value)).value.uid
    ensures Auth.HasBearer(authorization) && verify(Auth.BearerToken(authorization.value)).Some? ==>
              r == CreateSession(verify(Auth.BearerToken(authorization.value)).value,
                                 sessionId, now, production, insertFails, store)
  {
    var gate := Auth.VerifyToken(authorization, verify);
    if gate.rejection.Some? then SessionReply(gate.rejection.value, store, Untouched)
    else CreateSession(gate.user.value, sessionId, now, production, insertFails, store)
  }

  /** `/delSessions`: delete the record named by the cookie and clear the
      cookie. `fails` is the store throwing on the delete. */
  function DestroySession(cookie: Option<string>, fails: bool, store: SessionStore): (r: SessionReply)
    ensures !HasCookie(cookie) ==>
              r == SessionReply(Response(400, Message("error", "Bad Request: No session cookie provided")), store, Untouched)
    ensures HasCookie(cookie) && fails ==> r == SessionReply(INTERNAL_ERROR, store, Untouched)
    ensures HasCookie(cookie) && !fails && !Known(store, cookie.value) ==>
              r == SessionReply(Response(404, Message("error", "Session not found")), store, Untouched)
    ensures HasCookie(cookie) && !fails && Known(store, cookie.value) ==>
              && r.response == Response(200, Message("message", "Session cookie cleared and session removed from DB"))
              && r.cookie == ClearCookie(COOKIE)
              && exists i :: 0 <= i < |store| && store[i].sessionId == cookie.value
                             && (forall j :: 0 <= j < i ==> store[j].sessionId != cookie.value)
                             && r.store == RemoveAt(store, i)
    ensures r.cookie.ClearCookie? <==> r.store != store
    ensures !r.cookie.SetCookie?
  {
    if !HasCookie(cookie) then
      SessionReply(Response(400, Message("error", "Bad Request: No session cookie provided")), store, Untouched)
    else if fails then SessionReply(INTERNAL_ERROR, store, Untouched)
    else
      var id := cookie.value;
      match FirstMatch(store, (rec: SessionRecord) => rec.sessionId == id)
      case None => SessionReply(Response(404, Message("error", "Session not found")), store, Untouched)
      case Some(i) =>
        SessionReply(Response(200, Message("message", "Session cookie cleared and session removed from DB")),
                     RemoveAt(store, i), ClearCookie(COOKIE))
  }

  /** The body `/getSessions` sends for a valid session. */
  function SessionInfo(rec: SessionRecord): Value {
    Obj(map["message" := Str("Session is valid"),
            "userId" := Str(rec.userId),
            "sessionId" := Str(rec.sessionId),
            "expiresAt" := Date(rec.expiresAt)])
  }

  /** `/getSessions`: the record named by the cookie. Only its existence is
      checked; `expiresAt` is reported, never compared with the clock.
      `fails` is the store throwing on the lookup. */
  function ReadSession(cookie: Option<string>, fails: bool, store: SessionStore): (r: SessionReply)
    ensures r.store == store && r.cookie == Untouched
    ensures !HasCookie(cookie) ==> r.response == Response(401, Message("error", "Unauthorized: No session cookie"))
    ensures HasCookie(cookie) && (fails || !Known(store, cookie.value)) ==>
              r.response == Response(401, Message("error", "Unauthorized: Invalid session"))
    ensures HasCookie(cookie) && !fails && Known(store, cookie.value) ==>
              exists i :: 0 <= i < |store| && store[i].sessionId == cookie.value
                          && (forall j :: 0 <= j < i ==> store[j].sessionId != cookie.value)
                          && r.response == Response(200, SessionInfo(store[i]))
    ensures r.response.status == 200 <==> HasCookie(cookie) && !fails && Known(store, cookie.value)
    ensures r.response.status != 200 ==> r.response.status == 401
  {
    if !HasCookie(cookie) then
      SessionReply(Response(401, Message("error", "Unauthorized: No session cookie")), store, Untouched)
    else if fails then
      SessionReply(Response(401, Message("error", "Unauthorized: Invalid session")), store, Untouched)
    else
      var id := cookie.value;
      match FirstMatch(store, (rec: SessionRecord) => rec.sessionId == id)
      case None => SessionReply(Response(401, Message("error", "Unauthorized: Invalid session")), store, Untouched)
      case Some(i) => SessionReply(Response(200, SessionInfo(store[i])), store, Untouched)
  }

  /** Creating a session under an unused id keeps session ids distinct. */
  lemma CreateKeepsIdsUnique(user: Auth.Claims, sessionId: string, now: int, production: bool,
                             insertFails: bool, store: SessionStore)
    requires UniqueIds(store)
    requires !Known(store, sessionId)
    ensures UniqueIds(CreateSession(user, sessionId, now, production, insertFails, store).store)
  {
    var s' := CreateSession(user, sessionId, now, production, insertFails, store).store;
    if !insertFails {
      forall i, j | 0 <= i < j < |s'| ensures s'[i].sessionId != s'[j].sessionId {
        if j == |store| {
          assert s'[i] == store[i];
        } else {
          assert s'[i] == store[i] && s'[j] == store[j];
        }
      }
    }
  }

  /** Destroying a session keeps session ids distinct, and afterwards the id
      is no longer known. */
  lemma DestroyKeepsIdsUnique(cookie: Option<string>, fails: bool, store: SessionStore)
    requires UniqueIds(store)
    ensures UniqueIds(DestroySession(cookie, fails, store).store)
    ensures HasCookie(cookie) && !fails ==> !Known(DestroySession(cookie, fails, store).store, cookie.value)
  {
    var r := DestroySession(cookie, fails, store);
    if HasCookie(cookie) && !fails && Known(store, cookie.value) {
      var i :| 0 <= i < |store| && store[i].sessionId == cookie.value && r.store == RemoveAt(store, i);
      RemoveAtKeepsUnique(store, i);
    }
  }

  /** Removing the record at `i` keeps the ids distinct and leaves no record
      with its id. */
  lemma RemoveAtKeepsUnique(store: SessionStore, i: nat)
    requires UniqueIds(store) && i < |store|
    ensures UniqueIds(RemoveAt(store, i))
    ensures !Known(RemoveAt(store, i), store[i].sessionId)
  {
    var s' := RemoveAt(store, i);
    forall a, b | 0 <= a < b < |s'| ensures s'[a].sessionId != s'[b].sessionId {
      assert s'[a] == store[if a < i then a else a + 1];
      assert s'[b] == store[if b < i then b else b + 1];
    }
    forall a | 0 <= a < |s'| ensures s'[a].sessionId != store[i].sessionId {
      assert s'[a] == store[if a < i then a else a + 1];
    }
  }

  /** A session created under an unused id reads back as valid, with the
      creator's uid and an expiry one day after creation, whatever the time
      of the read: the read has no clock to compare against. */
  lemma CreateThenRead(user: Auth.Claims, sessionId: string, now: int, production: bool, store: SessionStore)
    requires sessionId != ""
    requires !Known(store, sessionId)
    ensures ReadSession(Some(sessionId), false, CreateSession(user, sessionId, now, production, false, store).store).response
            == Response(200, SessionInfo(SessionRecord(sessionId, user.uid, now, now, now + DAY_MS)))
  {
    var s' := CreateSession(user, sessionId, now, production, false, store).store;
    assert s'[|store|].sessionId == sessionId;
    var r := ReadSession(Some(sessionId), false, s');
    var i :| 0 <= i < |s'| && s'[i].sessionId == sessionId
             && (forall j :: 0 <= j < i ==> s'[j].sessionId != sessionId)
             && r.response == Response(200, SessionInfo(s'[i]));
  }

  /** Logging in with a bearer token the identity provider accepts, under an
      unused session id, issues the cookie for that id, and the session then
      reads back as the token's user. */
  lemma PostSessionsThenRead(authorization: Option<string>, verify: Auth.Verifier, sessionId: string,
                             now: int, production: bool, store: SessionStore)
    requires Auth.HasBearer(authorization) && verify(Auth.BearerToken(authorization.value)).Some?
    requires sessionId != "" && UniqueIds(store) && !Known(store, sessionId)
    ensures var posted := PostSessions(authorization, verify, sessionId, now, production, false, store);
            var uid := verify(Auth.BearerToken(authorization.value)).value.uid;
            && posted.response.status == 200
            && posted.cookie.SetCookie? && posted.cookie.value == sessionId
            && UniqueIds(posted.store)
            && ReadSession(Some(sessionId), false, posted.store).response
               == Response(200, SessionInfo(SessionRecord(sessionId, uid, now, now, now + DAY_MS)))
  {
    var user := verify(Auth.BearerToken(authorization.value)).value;
    CreateThenRead(user, sessionId, now, production, store);
    CreateKeepsIdsUnique(user, sessionId, now, production, false, store);
  }

  /** With distinct ids, logout succeeds once and then reports 404 without
      touching the cookie or the store. */
  lemma DestroyTwice(id: string, store: SessionStore)
    requires id != ""
    requires UniqueIds(store)
    requires Known(store, id)
    ensures DestroySession(Some(id), false, store).response.status == 200
    ensures DestroySession(Some(id), false, store).cookie == ClearCookie(COOKIE)
    ensures DestroySession(Some(id), false, DestroySession(Some(id), false, store).store)
            == SessionReply(Response(404, Message("error", "Session not found")),
                            DestroySession(Some(id), false, store).store, Untouched)
  {
    DestroyKeepsIdsUnique(Some(id), false, store);
  }

  /** Without distinct ids the second logout still succeeds: a duplicated id
      survives one delete. */
  lemma DuplicateIdSurvivesLogout(rec: SessionRecord)
    requires rec.sessionId != ""
    ensures DestroySession(Some(rec.sessionId), false, [rec, rec]).store == [rec]
    ensures DestroySession(Some(rec.sessionId), false, [rec]).response.status == 200
  {
    assert [rec, rec][0].sessionId == rec.sessionId;
    assert [rec][0].sessionId == rec.sessionId;
  }

  /** The lifecycle: log in as `user`, read the session back, log out, and
      the same cookie is then refused as an invalid session. */
  lemma Lifecycle(user: Auth.Claims, sessionId: string, now: int, production: bool, store: SessionStore)
    requires sessionId != ""
    requires UniqueIds(store)
    requires !Known(store, sessionId)
    ensures var created := CreateSession(user, sessionId, now, production, false, store);
            var read := ReadSession(Some(sessionId), false, created.store);
            var destroyed := DestroySession(Some(sessionId), false, created.store);
            var reread := ReadSession(Some(sessionId), false, destroyed.store);
            && created.cookie.SetCookie? && created.cookie.value == sessionId
            && read.response.status == 200
            && read.response.body.fields["userId"] == Str(user.uid)
            && destroyed.response.status == 200
            && destroyed.cookie == ClearCookie(COOKIE)
            && reread.response == Response(401, Message("error", "Unauthorized: Invalid session"))
  {
    var created := CreateSession(user, sessionId, now, production, false, store);
    CreateThenRead(user, sessionId, now, production, store);
    CreateKeepsIdsUnique(user, sessionId, now, production, false, store);
    assert created.store[|store|].sessionId == sessionId;
    DestroyKeepsIdsUnique(Some(sessionId), false, created.store);
  }

  /* The cookie as the routes actually receive it. Cookie parsing turns a
     value written `j:<json>` into the parsed JSON, so `req.cookies.session`
     is any JSON value, not only a string, and it goes into the query
     unchecked. */

  const NO_COOKIE := Response(401, Message("error", "Unauthorized: No session cookie"))
  const INVALID_SESSION := Response(401, Message("error", "Unauthorized: Invalid session"))

  /** Whether the query `{ sessionId: q }` selects a record with session id
      `id`. A one-key object `{ $ne: v }` is a query operator and selects
      every id other than `v`; any other value selects by equality. */
  predicate SessionIdSelects(q: Value, id: string) {
    if q.Obj? && q.fields.Keys == {"$ne"} then q.fields["$ne"] != Str(id)
    else q == Str(id)
  }

  /** `/getSessions` as written, on the parsed cookie value (`Undefined`
      when the request has none). */
  function ReadSessionAsWritten(cookie: Value, fails: bool, store: SessionStore): (r: SessionReply)
    ensures r.store == store && r.cookie == Untouched
    ensures !Truthy(cookie) ==> r.response == NO_COOKIE
    ensures r.response.status == 200 <==>
              Truthy(cookie) && !fails && exists i :: 0 <= i < |store| && SessionIdSelects(cookie, store[i].sessionId)
    ensures r.response.status == 200 ==>
              exists i :: 0 <= i < |store| && SessionIdSelects(cookie, store[i].sessionId)
                          && (forall j :: 0 <= j < i ==> !SessionIdSelects(cookie, store[j].sessionId))
                          && r.response == Response(200, SessionInfo(store[i]))
  {
    if !Truthy(cookie) then SessionReply(NO_COOKIE, store, Untouched)
    else if fails then SessionReply(INVALID_SESSION, store, Untouched)
    else
      match FirstMatch(store, (rec: SessionRecord) => SessionIdSelects(cookie, rec.sessionId))
      case None => SessionReply(INVALID_SESSION, store, Untouched)
      case Some(i) => SessionReply(Response(200, SessionInfo(store[i])), store, Untouched)
  }

  /** `/delSessions` as written, on the parsed cookie value. */
  function DestroySessionAsWritten(cookie: Value, fails: bool, store: SessionStore): (r: SessionReply)
    ensures !Truthy(cookie) || fails ==> r.store == store && r.cookie == Untouched
    ensures r.store != store <==>
              Truthy(cookie) && !fails && exists i :: 0 <= i < |store| && SessionIdSelects(cookie, store[i].sessionId)
    ensures r.store != store ==>
              && r.response.status == 200 && r.cookie == ClearCookie(COOKIE)
              && exists i :: 0 <= i < |store| && SessionIdSelects(cookie, store[i].sessionId)
                             && (forall j :: 0 <= j < i ==> !SessionIdSelects(cookie, store[j].sessionId))
                             && r.store == RemoveAt(store, i)
  {
    if !Truthy(cookie) then
      SessionReply(Response(400, Message("error", "Bad Request: No session cookie provided")), store, Untouched)
    else if fails then SessionReply(INTERNAL_ERROR, store, Untouched)
    else
      match FirstMatch(store, (rec: SessionRecord) => SessionIdSelects(cookie, rec.sessionId))
      case None => SessionReply(Response(404, Message("error", "Session not found")), store, Untouched)
      case Some(i) =>
        SessionReply(Response(200, Message("message", "Session cookie cleared and session removed from DB")),
                     RemoveAt(store, i), ClearCookie(COOKIE))
  }

  /** The parsed value of the cookie `session=j:{"$ne":null}`. */
  const NOT_NULL_COOKIE: Value := Obj(map["$ne" := Null])

  /** The cookie `session=j:{"$ne":null}` names no session at all, yet on any
      non-empty store it reads back the first record, whoever owns it, and
      logging out with it removes that record. */
  lemma InjectedCookieTakesFirstSession(store: SessionStore)
    requires |store| > 0
    ensures ReadSessionAsWritten(NOT_NULL_COOKIE, false, store).response == Response(200, SessionInfo(store[0]))
    ensures DestroySessionAsWritten(NOT_NULL_COOKIE, false, store).store == store[1..]
  {
    assert SessionIdSelects(NOT_NULL_COOKIE, store[0].sessionId);
    var r := ReadSessionAsWritten(NOT_NULL_COOKIE, false, store);
    var i :| 0 <= i < |store| && SessionIdSelects(NOT_NULL_COOKIE, store[i].sessionId)
             && (forall j :: 0 <= j < i ==> !SessionIdSelects(NOT_NULL_COOKIE, store[j].sessionId))
             && r.response == Response(200, SessionInfo(store[i]));
    assert i == 0;
    var d := DestroySessionAsWritten(NOT_NULL_COOKIE, false, store);
    var k :| 0 <= k < |store| && SessionIdSelects(NOT_NULL_COOKIE, store[k].sessionId)
             && (forall j :: 0 <= j < k ==> !SessionIdSelects(NOT_NULL_COOKIE, store[j].sessionId))
             && d.store == RemoveAt(store, k);
    assert k == 0;
  }

  /** The cookie as the routes evidently mean to read it: only a string is a
      session id, and any other parsed value counts as no cookie. */
  function CookieId(cookie: Value): (r: Option<string>)
    ensures r.Some? <==> cookie.Str?
    ensures r.Some? ==> r.value == cookie.s
  {
    if cookie.Str? then Some(cookie.s) else None
  }

  /** `/getSessions` with the cookie checked to be a string before it reaches
      the query: a session is returned only for a cookie that is its id. */
  function ReadSessionChecked(cookie: Value, fails: bool, store: SessionStore): (r: SessionReply)
    ensures r.store == store && r.cookie == Untouched
    ensures r.response.status == 200 <==> cookie.Str? && cookie.s != "" && !fails && Known(store, cookie.s)
    ensures r.response.status == 200 ==>
              exists i :: 0 <= i < |store| && store[i].sessionId == cookie.s
                          && r.response == Response(200, SessionInfo(store[i]))
  {
    ReadSession(CookieId(cookie), fails, store)
  }

  /** `/delSessions` with the cookie checked to be a string: a record is
      removed only for a cookie that is its id. */
  function DestroySessionChecked(cookie: Value, fails: bool, store: SessionStore): (r: SessionReply)
    ensures r.store != store <==> cookie.Str? && cookie.s != "" && !fails && Known(store, cookie.s)
    ensures r.store != store ==>
              exists i :: 0 <= i < |store| && store[i].sessionId == cookie.s && r.store == RemoveAt(store, i)
  {
    DestroySession(CookieId(cookie), fails, store)
  }

  /** On a plain string cookie, or none, the routes as written are exactly
      `ReadSession` and `DestroySession`: the injection needs a non-string
      cookie. */
  lemma AsWrittenOnStrings(cookie: Value, fails: bool, store: SessionStore)
    requires cookie.Str? || cookie == Undefined
    ensures ReadSessionAsWritten(cookie, fails, store) == ReadSessionChecked(cookie, fails, store)
    ensures DestroySessionAsWritten(cookie, fails, store) == DestroySessionChecked(cookie, fails, store)
  {
    forall id: string ensures SessionIdSelects(cookie, id) <==> cookie == Str(id) {
    }
  }
}

=== FILE: users.dfy ===
/** The user routes: create with required-field validation, look up by
    email, update by email with a `$set` of the request body, and list all.
    Users are found by their `email` field, which carries no unique index, so
    lookups and updates act on the first user with that email. */
module Users {
  import opened Values
  import opened Collection
  import opened Documents

  /** The fields `/createUsers` copies into the new user as they arrive. */
  const USER_FIELDS: seq<string> := [
    "userId", "name", "picture", "email", "password",
    "bloodGroup", "district", "upazilla", "role", "status"]

  const INVALID_EMAIL := Message("message", "Missing required parameter: email")

  predicate HasRequiredFields(body: Doc) {
    Truthy(Field(body, "name")) && Truthy(Field(body, "email")) && Truthy(Field(body, "password"))
  }

  /** The document `/createUsers` inserts. */
  function UserDoc(body: Doc, now: int): Doc {
    map["createdAt" := Date(now)] + map k | k in USER_FIELDS :: Field(body, k)
  }

  /** `d` is the stored form of the user `/createUsers` builds from `body`:
      exactly the copied fields (null where absent), the creation time and
      the `_id`. */
  ghost predicate IsNewUser(d: Doc, body: Doc, now: int, id: string) {
    && HasId(d, id)
    && (forall k :: k in d <==> k in USER_FIELDS || k == "createdAt" || k == ID)
    && (forall k :: k in USER_FIELDS ==> d[k] == Stored(Field(body, k)))
    && d["createdAt"] == Date(now)
  }

  lemma StoredUser(body: Doc, now: int, id: string)
    ensures IsNewUser(WithId(UserDoc(body, now), id), body, now, id)
  {
    UserDocFields(body, now);
  }

  /** The user document before the store adds its `_id`. */
  lemma UserDocFields(body: Doc, now: int)
    ensures var doc := UserDoc(body, now);
            && (forall k :: k in doc <==> k in USER_FIELDS || k == "createdAt")
            && (forall k :: k in USER_FIELDS ==> doc[k] == Field(body, k))
            && doc["createdAt"] == Date(now)
            && ID !in doc
  {
    assert "createdAt" !in USER_FIELDS && ID !in USER_FIELDS;
  }

  /** `POST /createUsers`; `newId` is the `_id` the store generates. */
  function CreateUser(body: Doc, newId: string, now: int, fails: bool, store: Store): (r: Handled)
    ensures !HasRequiredFields(body) ==>
              r == Handled(Response(400, Message("message", "Missing required fields: name, email, password.")), store)
    ensures HasRequiredFields(body) && (fails || IdTaken(store, newId)) ==>
              r == Handled(Response(500, Message("message", "Failed to create user")), store)
    ensures r.response.status == 201 <==> HasRequiredFields(body) && !fails && !IdTaken(store, newId)
    ensures r.response.status != 201 ==> r.store == store
    ensures r.response.status == 201 ==>
              && r.response.body == Obj(map["userId" := ObjectId(newId)])
              && |r.store| == |store| + 1
              && r.store[..|store|] == store
              && IsNewUser(r.store[|store|], body, now, newId)
  {
    if !HasRequiredFields(body) then
      Handled(Response(400, Message("message", "Missing required fields: name, email, password.")), store)
    else if fails then
      Handled(Response(500, Message("message", "Failed to create user")), store)
    else
      match InsertOne(store, newId, UserDoc(body, now))
      case None => Handled(Response(500, Message("message", "Failed to create user")), store)
      case Some(s') =>
        assert s'[..|store|] == store;
        StoredUser(body, now, newId);
        Handled(Response(201, Obj(map["userId" := ObjectId(newId)])), s')
  }

  /** `{ email }`. */
  function EmailFilter(email: string): Doc {
    map["email" := Str(email)]
  }

  predicate HasEmail(d: Doc, email: string) {
    "email" in d && d["email"] == Str(email)
  }

  lemma EmailFilterMatches(email: string, d: Doc)
    ensures Matches(EmailFilter(email), d) <==> HasEmail(d, email)
  {
    if HasEmail(d, email) {
      assert Matches(EmailFilter(email), d);
    }
  }

  /** `i` is the first user with this email. */
  predicate FirstWithEmail(store: Store, email: string, i: int) {
    && 0 <= i < |store|
    && HasEmail(store[i], email)
    && forall j :: 0 <= j < i ==> !HasEmail(store[j], email)
  }

  predicate EmailKnown(store: Store, email: string) {
    exists i :: 0 <= i < |store| && HasEmail(store[i], email)
  }

  /** `GET /getUser/:id`, where the parameter is the email. */
  function GetUser(email: string, fails: bool, store: Store): (r: Handled)
    ensures r.store == store
    ensures email == "" ==> r.response == Response(400, INVALID_EMAIL)
    ensures email != "" && fails ==> r.response == Response(500, Message("message", "Failed to fetch user."))
    ensures email != "" && !fails && !EmailKnown(store, email) ==>
              r.response == Response(404, Message("message", "User not found."))
    ensures r.response.status == 200 <==> email != "" && !fails && EmailKnown(store, email)
    ensures r.response.status == 200 ==>
              exists i :: FirstWithEmail(store, email, i) && r.response.body == Obj(map["user" := Obj(store[i])])
  {
    if email == "" then Handled(Response(400, INVALID_EMAIL), store)
    else if fails then Handled(Response(500, Message("message", "Failed to fetch user.")), store)
    else
      match FindOne(store, EmailFilter(email))
      case None =>
        assert !EmailKnown(store, email) by {
          forall j | 0 <= j < |store| ensures !HasEmail(store[j], email) {
            EmailFilterMatches(email, store[j]);
          }
        }
        Handled(Response(404, Message("message", "User not found.")), store)
      case Some(d) =>
        var i :| 0 <= i < |store| && store[i] == d && Matches(EmailFilter(email), d)
                 && forall j :: 0 <= j < i ==> !Matches(EmailFilter(email), store[j]);
        EmailFilterMatches(email, d);
        forall j | 0 <= j < i ensures !HasEmail(store[j], email) {
          EmailFilterMatches(email, store[j]);
        }
        Handled(Response(200, Obj(map["user" := Obj(d)])), store)
  }

  /** The `updateResult` object `/updateUser` reports for a matched user. */
  function UpdateReport(modified: nat): Value {
    Obj(map[
      "acknowledged" := Bool(true),
      "matchedCount" := Num(1),
      "modifiedCount" := Num(modified),
      "upsertedId" := Null,
      "upsertedCount" := Num(0)])
  }

  /** `PATCH /updateUser/:id`: `$set` the request body on the first user
      with the email given as the parameter. */
  function UpdateUser(email: string, updates: Doc, fails: bool, store: Store): (r: Handled)
    ensures email == "" ==> r == Handled(Response(400, INVALID_EMAIL), store)
    ensures email != "" && |updates| == 0 ==>
              r == Handled(Response(400, Message("message", "No updates provided.")), store)
    ensures email != "" && |updates| > 0 && fails ==>
              r == Handled(Response(500, Message("message", "Failed to update user.")), store)
    ensures email != "" && |updates| > 0 && !fails && !EmailKnown(store, email) ==>
              r == Handled(Response(404, Message("message", "User not found.")), store)
    ensures email != "" && |updates| > 0 && !fails
            && (exists i :: FirstWithEmail(store, email, i) && !KeepsId(store[i], updates)) ==>
              r == Handled(Response(500, Message("message", "Failed to update user.")), store)
    ensures r.response.status == 200 <==>
              && email != "" && |updates| > 0 && !fails
              && exists i :: FirstWithEmail(store, email, i) && KeepsId(store[i], updates)
    ensures r.response.status == 200 ==>
              exists i :: FirstWithEmail(store, email, i)
                          && r.store == store[i := SetFields(store[i], updates)]
                          && r.response.body == Obj(map[
                               "message" := Str("User updated successfully."),
                               "updateResult" := UpdateReport(if SetFields(store[i], updates) == store[i] then 0 else 1)])
    ensures r.response.status != 200 ==> r.store == store
  {
    if email == "" then Handled(Response(400, INVALID_EMAIL), store)
    else if |updates| == 0 then Handled(Response(400, Message("message", "No updates provided.")), store)
    else if fails then Handled(Response(500, Message("message", "Failed to update user.")), store)
    else
      UpdateByEmail(store, email, updates);
      match UpdateOne(store, EmailFilter(email), updates)
      case None => Handled(Response(500, Message("message", "Failed to update user.")), store)
      case Some(u) =>
        if u.matched == 0 then
          Handled(Response(404, Message("message", "User not found.")), store)
        else
          Handled(Response(200, Obj(map[
                    "message" := Str("User updated successfully."),
                    "updateResult" := UpdateReport(u.modified)])), u.store)
  }

  /** What `updateOne({ email }, { $set: updates })` does, told by the first
      user with that email: the store refuses the update exactly when it
      would change that user's `_id`, nothing matches exactly when no user
      has the email, and otherwise that user, and no other, gets the `$set`,
      with a modified count of 1 exactly when it changed. */
  lemma UpdateByEmail(store: Store, email: string, updates: Doc)
    ensures var r := UpdateOne(store, EmailFilter(email), updates);
            && (r.None? <==> exists i :: FirstWithEmail(store, email, i) && !KeepsId(store[i], updates))
            && (r.Some? && r.value.matched == 0 <==> !EmailKnown(store, email))
            && (r.Some? && r.value.matched == 1 <==> exists i :: FirstWithEmail(store, email, i) && KeepsId(store[i], updates))
            && (r.Some? && r.value.matched == 1 ==>
                  exists i :: FirstWithEmail(store, email, i)
                              && r.value.store == store[i := SetFields(store[i], updates)]
                              && r.value.modified == (if SetFields(store[i], updates) == store[i] then 0 else 1))
  {
    forall j | 0 <= j < |store| ensures Matches(EmailFilter(email), store[j]) <==> HasEmail(store[j], email) {
      EmailFilterMatches(email, store[j]);
    }
    match FirstMatch(store, d => Matches(EmailFilter(email), d))
    case None =>
    case Some(i) =>
      assert FirstWithEmail(store, email, i);
      forall k | FirstWithEmail(store, email, k) ensures k == i {
      }
  }

  /** `GET /getAllUsers`. */
  function GetAllUsers(fails: bool, store: Store): (r: Handled)
    ensures r.store == store
    ensures fails ==> r.response == Response(500, Message("message", "Failed to fetch users."))
    ensures !fails && |store| == 0 ==> r.response == Response(404, Message("message", "No users found."))
    ensures !fails && |store| > 0 ==> r.response.status == 200 && r.response.body == Obj(map["users" := Docs(store)])
  {
    if fails then Handled(Response(500, Message("message", "Failed to fetch users.")), store)
    else
      var users := Find(store, map[]);
      assert users == store by { FindAll(store); }
      if |users| == 0 then Handled(Response(404, Message("message", "No users found.")), store)
      else Handled(Response(200, Obj(map["users" := Docs(users)])), store)
  }


  /** A new user whose email nobody has yet is found by that email. */
  lemma CreateThenGetUser(body: Doc, newId: string, now: int, store: Store, email: string)
    requires Field(body, "email") == Str(email)
    requires !EmailKnown(store, email)
    requires HasRequiredFields(body) && !IdTaken(store, newId)
    ensures var s' := CreateUser(body, newId, now, false, store).store;
            GetUser(email, false, s').response == Response(200, Obj(map["user" := Obj(s'[|store|])]))
  {
    var s' := CreateUser(body, newId, now, false, store).store;
    assert HasEmail(s'[|store|], email);
    NewUserFirstWithEmail(store, s', email);
    var r := GetUser(email, false, s');
    var i :| FirstWithEmail(s', email, i) && r.response.body == Obj(map["user" := Obj(s'[i])]);
    FirstWithEmailUnique(s', email, i, |store|);
  }

  /** A user appended with an email nobody had is the first with it. */
  lemma NewUserFirstWithEmail(store: Store, s': Store, email: string)
    requires !EmailKnown(store, email)
    requires |s'| == |store| + 1 && s'[..|store|] == store && HasEmail(s'[|store|], email)
    ensures FirstWithEmail(s', email, |store|)
  {
    assert forall j :: 0 <= j < |store| ==> s'[j] == store[j];
  }

  /** Nothing stops a second account with an email already in use, and the
      lookup by email keeps returning the older one. */
  lemma DuplicateEmailShadowed(body: Doc, newId: string, now: int, store: Store, email: string, i: nat)
    requires Field(body, "email") == Str(email)
    requires FirstWithEmail(store, email, i)
    requires HasRequiredFields(body) && !IdTaken(store, newId)
    ensures CreateUser(body, newId, now, false, store).response.status == 201
    ensures GetUser(email, false, CreateUser(body, newId, now, false, store).store).response
            == Response(200, Obj(map["user" := Obj(store[i])]))
  {
    var s' := CreateUser(body, newId, now, false, store).store;
    FirstWithEmailKept(store, s', email, i);
    var r := GetUser(email, false, s');
    var k :| FirstWithEmail(s', email, k) && r.response.body == Obj(map["user" := Obj(s'[k])]);
    FirstWithEmailUnique(s', email, i, k);
  }

  /** There is only one first user with a given email. */
  lemma FirstWithEmailUnique(store: Store, email: string, i: int, k: int)
    requires FirstWithEmail(store, email, i) && FirstWithEmail(store, email, k)
    ensures i == k
  {
  }

  /** Appending users does not change who is first with an email. */
  lemma FirstWithEmailKept(store: Store, s': Store, email: string, i: int)
    requires FirstWithEmail(store, email, i)
    requires |s'| >= |store| && s'[..|store|] == store
    ensures FirstWithEmail(s', email, i)
  {
    assert forall j :: 0 <= j < |store| ==> s'[j] == store[j];
  }


  /** After an update of a known user that leaves the email and the `_id`
      as they are, looking the user up shows the new field values. */
  lemma UpdateThenGetUser(email: string, updates: Doc, store: Store, i: nat)
    requires email != "" && |updates| > 0
    requires FirstWithEmail(store, email, i) && KeepsId(store[i], updates)
    requires "email" !in updates || updates["email"] == Str(email)
    ensures var got := GetUser(email, false, UpdateUser(email, updates, false, store).store).response;
            && got.status == 200 && got.body.Obj? && "user" in got.body.fields
            && Shows(got.body.fields["user"], updates)
  {
    var s' := UpdateUser(email, updates, false, store).store;
    var i' :| FirstWithEmail(store, email, i') && s' == store[i' := SetFields(store[i'], updates)];
    FirstWithEmailUnique(store, email, i, i');
    StillFirstWithEmail(store, email, updates, i);
    var r := GetUser(email, false, s');
    var k :| FirstWithEmail(s', email, k) && r.response.body == Obj(map["user" := Obj(s'[k])]);
    FirstWithEmailUnique(s', email, i, k);
  }

  /** A `$set` that keeps the email leaves its user first with that email. */
  lemma StillFirstWithEmail(store: Store, email: string, updates: Doc, i: nat)
    requires FirstWithEmail(store, email, i)
    requires "email" !in updates || updates["email"] == Str(email)
    ensures FirstWithEmail(store[i := SetFields(store[i], updates)], email, i)
  {
  }


  /** Creating a user keeps every `_id` present and distinct. */
  lemma CreateUserKeepsWellFormed(body: Doc, newId: string, now: int, fails: bool, store: Store)
    requires WellFormed(store)
    ensures WellFormed(CreateUser(body, newId, now, fails, store).store)
  {
    if CreateUser(body, newId, now, fails, store).response.status == 201 {
      InsertKeepsWellFormed(store, newId, UserDoc(body, now));
    }
  }

  /** Updating a user keeps every `_id` present and distinct. */
  lemma UpdateUserKeepsWellFormed(email: string, updates: Doc, fails: bool, store: Store)
    requires WellFormed(store)
    ensures WellFormed(UpdateUser(email, updates, fails, store).store)
  {
    if UpdateUser(email, updates, fails, store).response.status == 200 {
      UpdateKeepsWellFormed(store, EmailFilter(email), updates);
    }
  }

}

=== FILE: values.dfy ===
/** JavaScript values as they travel between a request, the route handlers
    and the document store, together with the HTTP response every handler
    produces. */
module Values {

  datatype Option<+T> = None | Some(value: T)

  /** A JSON/BSON value. `Undefined` stands for a field the request did not
      carry (what destructuring an absent key yields). */
  datatype Value =
    | Undefined
    | Null
    | Bool(b: bool)
    | Num(n: int)
    | Str(s: string)
    | Date(ms: int)
    | ObjectId(hex: string)
    | Arr(items: seq<Value>)
    | Obj(fields: map<string, Value>)

  /** A stored document, a request body or a query: an object with named fields. */
  type Doc = map<string, Value>

  /** JavaScript truthiness: `undefined`, `null`, `false`, `0` and `""` are falsy. */
  predicate Truthy(v: Value) {
    match v
    case Undefined => false
    case Null => false
    case Bool(b) => b
    case Num(n) => n != 0
    case Str(s) => s != ""
    case _ => true
  }

  /** The falsy values are exactly the five the guards reject. */
  lemma FalsyValues(v: Value)
    ensures !Truthy(v) <==> v == Undefined || v == Null || v == Bool(false) || v == Num(0) || v == Str("")
  {
  }

  /** `body.key`, with `Undefined` for an absent key. */
  function Field(body: Doc, key: string): Value {
    if key in body then body[key] else Undefined
  }

  /** `a || b` on JavaScript values. */
  function Or(a: Value, b: Value): (r: Value)
    ensures Truthy(a) ==> r == a
    ensures !Truthy(a) ==> r == b
  {
    if Truthy(a) then a else b
  }

  /** A parameter with a default: `const { x = d } = req.query`. */
  function OrDefault<T>(o: Option<T>, d: T): (r: T)
    ensures o.Some? ==> r == o.value
    ensures o.None? ==> r == d
  {
    match o
    case Some(v) => v
    case None => d
  }

  /** The value the store keeps for a top-level field: the document driver
      serialises `undefined` as `null`. */
  function Stored(v: Value): (r: Value)
    ensures r != Undefined
    ensures v == Undefined ==> r == Null
    ensures v != Undefined ==> r == v
  {
    if v == Undefined then Null else v
  }

  /** A document as the store keeps it. */
  function Serialize(d: Doc): (r: Doc)
    ensures r.Keys == d.Keys
    ensures forall k :: k in r ==> r[k] == Stored(d[k])
  {
    map k | k in d :: Stored(d[k])
  }

  /** A list of documents as a JSON array. */
  function Docs(ds: seq<Doc>): (r: Value)
    ensures r.Arr? && |r.items| == |ds|
    ensures forall i :: 0 <= i < |ds| ==> r.items[i] == Obj(ds[i])
  {
    Arr(seq(|ds|, i requires 0 <= i < |ds| => Obj(ds[i])))
  }

  /** The status code and JSON body a handler sends. */
  datatype Response = Response(status: int, body: Value)

  /** A one-field JSON object such as `{ message: "…" }`. */
  function Message(key: string, text: string): Value {
    Obj(map[key := Str(text)])
  }
}
